=== FILE: README.md ===
# AudaciousTunes `Wav` in Dafny

This project models the `Wav` class of AudaciousTunes (`AudaciousTunes/Audacious/Wav.cs`).
A `Wav` holds two channels of float samples. Its methods grow, splice, slice and clear them
in place. It also writes a RIFF/WAVE stream to memory (`Serialize(channels, bitDepth, sampRate)`)
and reads one back (`Load(MemoryStream)` with its helper `Construct`).

Layout:

- `wrappers.dfy`: `Option` and `Result`.
- `little_endian.dfy`: bytes, `u16`/`u32`, two's-complement `int16`/`int32`, and
  little-endian field encoding and decoding, which is what `BitConverter` does on a
  little-endian platform.
- `samples.dfy`: a sample is the 32-bit IEEE-754 bit pattern of a `float`. The numeric casts
  `(byte)f`, `(short)f`, `(float)b` and `(float)s` are the fields of a `Casts` value that every
  operation using them takes as a parameter. Reinterpreting a float as bytes is exact.
- `wave_format.dfy`: the writer's output (`Encode`) and the reader's result (`Decode`,
  `Constructed`) as functions of their inputs. Helpers describe each loop after `k` steps
  (`BodyUpTo`, `ScanFrom`, `FormatUpTo`, `DataUpTo`).
- `wav.dfy`: the class `Wav` with its two `seq<Sample>` fields and its methods. Every loop
  on the modelled paths is a loop here. There are two exceptions. The 24-bit conversion loop
  (lines 736-743) is an `if`, because its first iteration throws. The `foreach` loops that
  only build exception messages (lines 593-596, 629-632) are left out, like the messages. Each method is proved equal to the matching function of
  `wave_format.dfy`.
- `writer_properties.dfy`, `reader_properties.dfy`, `round_trip.dfy`: what the writer
  guarantees, what the reader accepts, and what `Load` makes of `Serialize`'s output.

Behaviour modelled as the code has it:

- `Serialize` computes the data size as `Length() * (bitDepth / 8)` without the channel
  factor. The header's `uint` fields are computed modulo 2^32, but only the byte rate
  (`sampRate * blockAlign`) can wrap in a stream that is actually returned. A `MemoryStream`
  holds under 2^31 bytes (`FitsMemoryStream`), and at every such size neither size field
  wraps. The lemmas about written streams are stated over that whole range.
- The memory-stream writer emits 2 bytes per sample at every bit depth.
  - For 8-bit, `GetBytes((byte)x)` binds to the `short` overload and yields `[x, 0]`.
  - For 32-bit, only the first 2 of the float's 4 bytes are written.
- The shorter channel is padded with silence in place, one index at a time. A 24-bit write
  throws `NotImplementedException` at the first index, after that index has been padded. With
  no samples, a 24-bit write succeeds and returns the header alone. The class summary
  (Wav.cs:10-14) lists 24-bit among the supported depths; neither direction handles it.
- The writer accepts a sample rate of 0: its check is `< 0`, although its message
  (Wav.cs:357-361) says the rate must be positive. The reader rejects 0 (`< 1`).
- `Load` checks every `'fmt '` chunk, and the last one decides the format. The "`'fmt '` not
  found" branch tests `i == Count` inside a loop over `i < Count`, so it never runs.
- `Load` appends the samples of every `'data'` chunk. It fails when the last chunk is not
  `'data'`, even after it has read a `'data'` chunk. A stream with no chunk after the
  `WAVE` tag loads as nothing.
- Without a `'fmt '` chunk the channel count stays 0, and `Construct` rejects the data.
- `Construct` receives `(int)sampleRate`, so a rate of 2^31 or more becomes negative and is
  rejected.
- The stereo de-interleaving in `Construct` sits inside `if (channels == 1)`, so stereo data
  yields no samples.
- 24-bit data hands a 2-byte array to `BitConverter.ToSingle`, which throws for any
  non-empty chunk.

## Model

| member | source | states |
|---|---|---|
| WavStore.Wav.constructor | AudaciousTunes/Audacious/Wav.cs:25-29 | a new wave has two empty channels |
| WavStore.Wav.FromSamples | AudaciousTunes/Audacious/Wav.cs:35-40 | both channels hold the given samples (also the explicit conversion at lines 670-673) |
| WavStore.Wav.FromChannels | AudaciousTunes/Audacious/Wav.cs:47-51 | the channels are the given lists |
| WavStore.Wav.Copy | AudaciousTunes/Audacious/Wav.cs:57-61 | the copy's channels equal the other wave's channels |
| WavStore.Wav.FromStream | AudaciousTunes/Audacious/Wav.cs:76-79 | the constructor from a memory stream succeeds exactly when `Decode` does, fails with `Decode`'s error, and holds the decoded channels |
| WavStore.Wav.Add | AudaciousTunes/Audacious/Wav.cs:86-90 | the same samples are appended to both channels |
| WavStore.Wav.AddChannels | AudaciousTunes/Audacious/Wav.cs:97-101 | each list is appended to its own channel |
| WavStore.Wav.AddWav | AudaciousTunes/Audacious/Wav.cs:107-111 | another wave's channels are appended, read before the call even when that wave is this one |
| WavStore.Wav.AddLeft | AudaciousTunes/Audacious/Wav.cs:117-120 | only the left channel grows; the right one is unchanged |
| WavStore.Wav.AddRight | AudaciousTunes/Audacious/Wav.cs:126-129 | only the right channel grows; the left one is unchanged |
| WavStore.Wav.Clear | AudaciousTunes/Audacious/Wav.cs:134-138 | both channels are empty afterwards |
| WavStore.RangeFailure | AudaciousTunes/Audacious/Wav.cs:148-149 | `List.GetRange` fails exactly when index or count is negative or the range runs past the list |
| WavStore.Wav.GetRange | AudaciousTunes/Audacious/Wav.cs:145-152 | succeeds exactly when the range fits both channels; the new wave holds exactly `left[index..index+count]` and `right[index..index+count]`; otherwise the left channel's error comes first |
| WavStore.InsertFailure | AudaciousTunes/Audacious/Wav.cs:161-162 | `List.InsertRange` fails exactly when the index lies outside `0..Count` |
| WavStore.Wav.Insert | AudaciousTunes/Audacious/Wav.cs:159-163 | each channel becomes `old[..index] + samples + old[index..]`; an index that fits only the left channel changes the left channel and then fails |
| WavStore.Wav.InsertChannels | AudaciousTunes/Audacious/Wav.cs:171-179 | the same splice with a list per channel, left first |
| WavStore.Wav.InsertWav | AudaciousTunes/Audacious/Wav.cs:186-190 | the same splice with another wave's channels, read before the call |
| WavStore.Wav.Length | AudaciousTunes/Audacious/Wav.cs:195-203 | the result is at least each channel's length and equals one of them |
| WavStore.Wav.Concat | AudaciousTunes/Audacious/Wav.cs:647-652 | `wav1 + wav2` is a fresh wave with `left1 + left2` and `right1 + right2`; neither operand changes |
| WavStore.Wav.Append | AudaciousTunes/Audacious/Wav.cs:659-664 | `wav + samples` is a fresh wave with the samples appended to both channels; `wav` does not change |
| WavStore.Wav.Serialize | AudaciousTunes/Audacious/Wav.cs:338-442 | the result is `Encode` of the channels before the call. Bad parameters leave the store unchanged. Success leaves both channels padded to the old `Length()`. A 24-bit failure leaves them padded to 1 |
| WavStore.Wav.WriteSamples | AudaciousTunes/Audacious/Wav.cs:390-436 | the padding-and-writing loop appends `BodyUpTo` of the padded channels to the header bytes, and pads the channels in place |
| WavStore.Wav.WriteFrame | AudaciousTunes/Audacious/Wav.cs:405-435 | one index appends the left sample's 2 bytes, then the right sample's in stereo, exactly `FrameBytes` |
| WavStore.Wav.ScanChunks | AudaciousTunes/Audacious/Wav.cs:505-535 | the cursor loop returns exactly `ScanFrom(b, 12)` |
| WavStore.Wav.ReadFormats | AudaciousTunes/Audacious/Wav.cs:537-600 | the `'fmt '` loop returns exactly `FormatUpTo` over all chunks |
| WavStore.Wav.ReadDataChunk | AudaciousTunes/Audacious/Wav.cs:606-622 | one `'data'` chunk gives exactly `DataChunkSamples`: the bounds error, the negative-count error, or `Construct` on the chunk's bytes |
| WavStore.Wav.AlignToSamples | AudaciousTunes/Audacious/Wav.cs:712-716 | the alignment loop appends exactly `PadCount` zero bytes |
| WavStore.Wav.WidenSamples | AudaciousTunes/Audacious/Wav.cs:718-751 | the conversion loops return one widened sample per 1, 2 or 4 bytes |
| WavStore.Wav.Construct | AudaciousTunes/Audacious/Wav.cs:684-780 | the result is exactly `Constructed`: argument checks in order, padding, conversion, and mono filling |
| WavStore.Wav.Load | AudaciousTunes/Audacious/Wav.cs:472-640 | succeeds exactly when `Decode` does and then appends the decoded samples to each channel; on failure the error is `Decode`'s and the old channels are kept as a prefix |
| WavStore.Wav.AppendData | AudaciousTunes/Audacious/Wav.cs:602-636 | the `'data'` loop succeeds exactly when `DataUpTo` does and appends its samples; on failure the channels hold the samples of every `'data'` chunk before the failing one (`PartlyAppended`) |
| LittleEndian.Int32Of | AudaciousTunes/Audacious/Wav.cs:622 | `(int)` of a `uint` is negative exactly at 2^31 and above, and is congruent to it modulo 2^32 |
| LittleEndian.U16RoundTrip | AudaciousTunes/Audacious/Wav.cs:379-384 | a 16-bit field written by `GetBytes` reads back unchanged |
| LittleEndian.U32RoundTrip | AudaciousTunes/Audacious/Wav.cs:378-382 | a 32-bit field written by `GetBytes` reads back unchanged |
| LittleEndian.U16BytesOfRead | AudaciousTunes/Audacious/Wav.cs:548-577 | the other half of the 16-bit field round trip: writing back a field read by `ReadUInt16` gives the same 2 bytes |
| LittleEndian.U32BytesOfRead | AudaciousTunes/Audacious/Wav.cs:488-566 | the other half of the 32-bit field round trip: writing back a field read by `ReadUInt32` gives the same 4 bytes |
| LittleEndian.Int16RoundTrip | AudaciousTunes/Audacious/Wav.cs:730-731 | `ToInt16` inverts the two's-complement bytes of a `short`, in both directions |
| Samples.FloatBytesRoundTrip | AudaciousTunes/Audacious/Wav.cs:748-749 | `ToSingle` of a float's 4 bytes is that float |
| WriterProperties.PaddedShape | AudaciousTunes/Audacious/Wav.cs:391-401 | after padding to n, a channel has n samples: the old ones unchanged, then silence |
| WriterProperties.EncodeFailures | AudaciousTunes/Audacious/Wav.cs:346-361 | each bad parameter gives its own error in the source's order; 24-bit fails exactly when there is a sample |
| WriterProperties.BodyLength | AudaciousTunes/Audacious/Wav.cs:391-436 | k indices write `2 * channels * k` bytes at every bit depth |
| WriterProperties.MonoBodyAt | AudaciousTunes/Audacious/Wav.cs:405-422 | in mono, index j's 2 bytes sit at offset `2 * j` and encode only the left sample |
| WriterProperties.BodyPrefix | AudaciousTunes/Audacious/Wav.cs:391-436 | the bytes written for the first m indices stay, unchanged, at the start of the bytes written for any later count |
| WriterProperties.StereoBodyAt | AudaciousTunes/Audacious/Wav.cs:405-435 | in stereo, index j's 4 bytes sit at offset `4 * j`: the left sample's 2 bytes, then the right sample's 2 |
| WriterProperties.HeaderFields | AudaciousTunes/Audacious/Wav.cs:363-388 | the 44 header bytes in order: tags, RIFF size, 16, 1, channels, rate, byte rate, block align, bit depth, data size |
| WriterProperties.SerializedLayout | AudaciousTunes/Audacious/Wav.cs:363-436 | the stream is the header followed by `2 * channels * Length()` sample bytes (none for 24-bit) |
| WriterProperties.SerializedHeader | AudaciousTunes/Audacious/Wav.cs:363-388 | the produced stream's length, and each header field read back as the reader reads it |
| WriterProperties.HeaderOfStream | AudaciousTunes/Audacious/Wav.cs:369-388 | a stream that starts with the 44 header bytes has the header's tags and field values |
| WriterProperties.SerializedSizes | AudaciousTunes/Audacious/Wav.cs:363-366 | the produced stream's length, RIFF size field and data size field as functions of the sample count |
| WriterProperties.SizeFieldsMatchLength | AudaciousTunes/Audacious/Wav.cs:365-366 | for every stream that fits in a `MemoryStream` (under 2^31 bytes), the data size is `Length() * (bitDepth / 8)` and the RIFF size 36 more, unwrapped; they match the stream's length exactly for an empty store, mono 16-bit, or stereo 32-bit |
| WriterProperties.SizesAgree | AudaciousTunes/Audacious/Wav.cs:365-366 | the size arithmetic behind that: for a stream under 2^31 bytes the wrapped sizes equal `n * (bitDepth / 8)` and 36 more, and both match the length exactly in those layouts |
| WriterProperties.SerializeTwiceSameBytes | AudaciousTunes/Audacious/Wav.cs:391-401 | serializing the padded store again gives the same bytes |
| ReaderProperties.ScannedChunksInside | AudaciousTunes/Audacious/Wav.cs:516-535 | each scanned chunk lies inside the stream and carries the id and size of its own 8-byte header |
| ReaderProperties.ScannedChunksAdjacent | AudaciousTunes/Audacious/Wav.cs:516-535 | each chunk starts 8 bytes after the previous one's end; at most 4 bytes follow the last |
| ReaderProperties.DecodeNeedsFraming | AudaciousTunes/Audacious/Wav.cs:478-502 | `Load` accepts only streams with the RIFF tag, a RIFF size of length − 8, and the WAVE tag |
| ReaderProperties.ReadFmtAccepts | AudaciousTunes/Audacious/Wav.cs:545-586 | an accepted `'fmt '` chunk is PCM with 1 or 2 channels, a rate of at least 1 and a supported bit depth, read from its fields |
| ReaderProperties.LastFormatWins | AudaciousTunes/Audacious/Wav.cs:538-587 | with several `'fmt '` chunks, the last one decides the format |
| ReaderProperties.NoFormatChunk | AudaciousTunes/Audacious/Wav.cs:511-514 | without a `'fmt '` chunk the format stays all zero |
| ReaderProperties.EveryFormatChecked | AudaciousTunes/Audacious/Wav.cs:538-587 | every `'fmt '` chunk, not only the last, must pass the checks |
| ReaderProperties.ConstructedShape | AudaciousTunes/Audacious/Wav.cs:692-777 | both channels get the same samples; stereo and 24-bit give none; mono gives one sample per started group of `bitDepth / 8` bytes |
| ReaderProperties.PaddedToWhole | AudaciousTunes/Audacious/Wav.cs:713-716 | padding rounds the length up to the next multiple of the sample width |
| ReaderProperties.DataChannelsAgree | AudaciousTunes/Audacious/Wav.cs:603-623 | every `'data'` chunk appends the same samples to both channels, and none for a stereo format |
| ReaderProperties.DataNeedsChannels | AudaciousTunes/Audacious/Wav.cs:619-622 | a `'data'` chunk can only be read with a channel count of 1 or 2 |
| ReaderProperties.DataChunkLast | AudaciousTunes/Audacious/Wav.cs:626-635 | an accepted stream's last chunk is `'data'`, unless it has no chunk |
| ReaderProperties.DecodedShape | AudaciousTunes/Audacious/Wav.cs:472-640 | a loaded stream ends with `'data'`, holds an accepted `'fmt '` chunk, yields equal channels, and yields nothing for stereo |
| RoundTrip.WrittenFormatReadBack | AudaciousTunes/Audacious/Wav.cs:545-586 | the reader accepts the writer's `'fmt '` chunk exactly when the rate is positive, and reads back its channels, rate and bit depth |
| RoundTrip.TwoChunks | AudaciousTunes/Audacious/Wav.cs:516-535 | a stream with consistent sizes scans as a `'fmt '` chunk at 20 and a `'data'` chunk at 44 |
| RoundTrip.FmtFieldsAccepted | AudaciousTunes/Audacious/Wav.cs:545-586 | a `'fmt '` chunk at byte 20 with valid fields is accepted with exactly those values |
| RoundTrip.DataOfTwoChunks | AudaciousTunes/Audacious/Wav.cs:603-623 | the `'data'` loop over a `'fmt '` chunk and a final `'data'` chunk is `Construct` on that chunk's bytes |
| RoundTrip.DecodeTwoChunks | AudaciousTunes/Audacious/Wav.cs:602-623 | loading such a stream is `Construct` on everything after byte 44 |
| RoundTrip.DecodeWritten | AudaciousTunes/Audacious/Wav.cs:338-442 | for consistent layouts, a positive rate and a stream under 2^31 bytes, loading the written stream is `Construct` on the written sample bytes |
| RoundTrip.ConsistentStreamDecodes | AudaciousTunes/Audacious/Wav.cs:478-623 | a stream under 2^31 bytes with a written header whose sizes match its length leads `Load` straight to `Construct` with the written format |
| RoundTrip.Pcm16ReadBack | AudaciousTunes/Audacious/Wav.cs:726-733 | 16-bit sample bytes widen back to each sample passed through the `short` cast |
| RoundTrip.Pcm16Constructed | AudaciousTunes/Audacious/Wav.cs:726-762 | `Construct` on mono 16-bit output gives those samples in both channels |
| RoundTrip.MonoPcm16RoundTrip | AudaciousTunes/Audacious/Wav.cs:414-422 | loading a mono 16-bit stream (under 2^31 bytes) gives back the padded left channel, each sample through the 16-bit cast, in both channels |
| RoundTrip.MonoPcm16Exact | AudaciousTunes/Audacious/Wav.cs:726-733 | samples that survive the 16-bit cast are read back exactly, for any mono 16-bit stream under 2^31 bytes |
| RoundTrip.Stereo32LoadsNothing | AudaciousTunes/Audacious/Wav.cs:754-777 | a stereo 32-bit stream under 2^31 bytes passes every check but loads no samples |
| RoundTrip.ConstructedOfNothing | AudaciousTunes/Audacious/Wav.cs:709-779 | `Construct` on no bytes with valid arguments builds an empty wave |
| RoundTrip.EmptyStoreRoundTrip | AudaciousTunes/Audacious/Wav.cs:363-388 | an empty store written with valid parameters and a positive rate loads as empty |
| RoundTrip.OtherLayoutsRejected | AudaciousTunes/Audacious/Wav.cs:489-493 | every other non-empty layout, at any size a `MemoryStream` can hold, fails the RIFF size check |
| RoundTrip.ZeroRateUnreadable | AudaciousTunes/Audacious/Wav.cs:567-571 | a stream written with rate 0, at any size a `MemoryStream` can hold, cannot be loaded |

## Left out

- The file overloads `Serialize(string, …)` (lines 217-327) and `Load(string)` (lines 449-465) are not part of this model. They are file-system I/O, and they write 1 and 4 bytes per sample for 8 and 32 bits where the memory-stream writer writes 2.
- The float ↔ integer casts are parameters (`Casts`). Their rounding, saturation and NaN behaviour is not modelled, so round trips are stated through the casts.
- `BitConverter` is assumed little-endian, as on x86, x64 and ARM.
- The constructor `Wav(List<float>, List<float>)` links the caller's lists (lines 47-51), and the channels are values here, so the model does not capture any of the following:
  - later changes made through the caller's reference;
  - a store whose two channels are one list, so that every append or insert lands in it twice;
  - a call to `Add`, `AddChannels`, `Insert` or `InsertChannels` given a list that is also the left channel. The source grows the left channel first, so the right channel then receives the already-grown list; the model gives both channels the list as it was at the call.
- The initial list capacity of 10000 has no observable effect and is left out.
- Exception messages are left out. Each throw site becomes one `WavError` constructor.
- `Load` records chunk names, sizes and positions in three parallel lists; the model keeps one list of `Chunk` records.
- Stream positions after a call, `Flush`, `Seek` and `Dispose` are left out.
- WavStore.Wav.Load: after a failure the contract says only that the old channels are kept as a prefix. The code has by then already appended the samples of earlier `'data'` chunks; `AppendData` states exactly which.
- `Load` reads from the stream's current `Position`, but compares the RIFF size with the whole `Length` and seeks to chunks by absolute offset. The model always reads from byte 0, which is where `Serialize` leaves its stream. A caller's stream handed over at another position is not modelled.
- Null arguments are left out, because Dafny values cannot be null:
  - a null `List<float>` makes `AddRange` or `InsertRange` throw `ArgumentNullException` (lines 88-128, 161-178);
  - a null `Wav` makes `Wav(Wav)`, `Add(Wav)`, `Insert(Wav, int)` and the `+` operator throw `NullReferenceException` while reading its channels (lines 59, 109, 188, 647-652);
  - `new Wav(null, null)` throws nothing and builds a store whose channels are null (lines 47-51).
- WavStore.Wav.Serialize: the model returns the stream however long it is. When the stream would grow past what a `MemoryStream` can hold (2^31 bytes or less, depending on the runtime's memory), the source's `ms.Write` throws `IOException` or `OutOfMemoryException` mid-loop, with the channels padded only up to the failing index. The exact point depends on the runtime, so `Encode` has no such error. Its size fields wrap only in that range.
- WavStore.Wav.WriteSamples: the same; the loop writes every index, where the source's stream write fails past the `MemoryStream` limit.
- `Mod.cs`, `Gen.cs`, `Utils.cs`, `WaveForm.cs` and `Program.cs` are not part of this model. They are floating-point arithmetic, randomness, a bare enum, and a driver doing file output and playback.

=== FILE: little_endian.dfy ===
/**
 * Bytes and the little-endian integer fields of a RIFF/WAVE stream,
 * as written by BitConverter.GetBytes and read by BinaryReader on a
 * little-endian machine.
 */
module LittleEndian {

  type byte = x: int | 0 <= x < 0x100
  type u16 = x: int | 0 <= x < 0x1_0000
  type u32 = x: int | 0 <= x < 0x1_0000_0000
  type int16 = x: int | -0x8000 <= x < 0x8000
  type int32 = x: int | -0x8000_0000 <= x < 0x8000_0000

  /** The 2 bytes of an unsigned 16-bit value, low byte first. */
  function U16Bytes(v: u16): (r: seq<byte>)
    ensures |r| == 2
  {
    [v % 0x100, v / 0x100]
  }

  /** The 4 bytes of an unsigned 32-bit value, low byte first. */
  function U32Bytes(v: u32): (r: seq<byte>)
    ensures |r| == 4
  {
    [v % 0x100, (v / 0x100) % 0x100, (v / 0x1_0000) % 0x100, v / 0x100_0000]
  }

  /** BinaryReader.ReadUInt16 at offset `at`. */
  function ReadU16(s: seq<byte>, at: nat): u16
    requires at + 2 <= |s|
  {
    s[at] as int + 0x100 * s[at + 1] as int
  }

  /** BinaryReader.ReadUInt32 at offset `at`. */
  function ReadU32(s: seq<byte>, at: nat): u32
    requires at + 4 <= |s|
  {
    s[at] as int + 0x100 * s[at + 1] as int + 0x1_0000 * s[at + 2] as int + 0x100_0000 * s[at + 3] as int
  }

  /** The two's-complement bit pattern of a 16-bit signed value. */
  function Int16Bits(v: int16): u16
  {
    if v < 0 then v + 0x1_0000 else v
  }

  /** The signed value of a 16-bit two's-complement pattern. */
  function Int16Of(b: u16): int16
  {
    if b >= 0x8000 then b - 0x1_0000 else b
  }

  /** The unchecked C# cast (int) of an unsigned 32-bit value. */
  function Int32Of(v: u32): (r: int32)
    ensures r < 0 <==> v >= 0x8000_0000
    ensures r % 0x1_0000_0000 == v
  {
    if v >= 0x8000_0000 then v - 0x1_0000_0000 else v
  }

  lemma U16RoundTrip(v: u16)
    ensures ReadU16(U16Bytes(v), 0) == v
  {
  }

  lemma U32RoundTrip(v: u32)
    ensures ReadU32(U32Bytes(v), 0) == v
  {
    var q1, q2 := v / 0x100, v / 0x1_0000;
    assert v == v % 0x100 + 0x100 * q1;
    assert q1 == q1 % 0x100 + 0x100 * (q1 / 0x100);
    assert q1 / 0x100 == q2;
    assert q2 == q2 % 0x100 + 0x100 * (q2 / 0x100);
    assert q2 / 0x100 == v / 0x100_0000;
  }

  /** Reading two bytes and writing them back gives the same bytes. */
  lemma U16BytesOfRead(s: seq<byte>, at: nat)
    requires at + 2 <= |s|
    ensures U16Bytes(ReadU16(s, at)) == s[at..at + 2]
  {
  }

  /** Reading four bytes and writing them back gives the same bytes. */
  lemma U32BytesOfRead(s: seq<byte>, at: nat)
    requires at + 4 <= |s|
    ensures U32Bytes(ReadU32(s, at)) == s[at..at + 4]
  {
    var b0, b1, b2, b3 := s[at] as int, s[at + 1] as int, s[at + 2] as int, s[at + 3] as int;
    var v := ReadU32(s, at);
    assert v == b0 + 0x100 * (b1 + 0x100 * (b2 + 0x100 * b3));
    assert v % 0x100 == b0 && v / 0x100 == b1 + 0x100 * (b2 + 0x100 * b3);
    var w := v / 0x100;
    assert w % 0x100 == b1 && w / 0x100 == b2 + 0x100 * b3;
    assert v / 0x1_0000 == w / 0x100;
    assert (v / 0x1_0000) % 0x100 == b2;
    assert v / 0x100_0000 == (w / 0x100) / 0x100 == b3;
  }

  /** A signed 16-bit value survives the trip through its bit pattern, both ways. */
  lemma Int16RoundTrip(v: int16, b: u16)
    ensures Int16Of(Int16Bits(v)) == v
    ensures Int16Bits(Int16Of(b)) == b
  {
  }
}

=== FILE: reader_properties.dfy ===
/**
 * Properties of the reader (Load and Construct): which streams it accepts,
 * where the chunks it finds lie, which 'fmt ' chunk decides the format, and
 * the shape of the samples it appends.
 */
module ReaderProperties {
  import opened Wrappers
  import opened LittleEndian
  import opened Samples
  import opened WaveFormat

  /**
   * Every chunk the scan reports lies inside the stream and carries the id
   * and the size read from its own 8-byte chunk header.
   */
  lemma {:induction false} ScannedChunksInside(b: seq<byte>, pos: nat)
    requires pos <= |b| && ScanFrom(b, pos).Ok?
    ensures var cs := ScanFrom(b, pos).value;
      forall k :: 0 <= k < |cs| ==>
        && pos + 8 <= cs[k].pos
        && cs[k].pos + cs[k].size <= |b|
        && cs[k].id == b[cs[k].pos - 8..cs[k].pos - 4]
        && cs[k].size == ReadU32(b, cs[k].pos - 4)
    decreases |b| - pos
  {
    if |b| - pos > 4 {
      var next := pos + 8 + ReadU32(b, pos + 4);
      ScannedChunksInside(b, next);
      var rest := ScanFrom(b, next).value;
      var cs := ScanFrom(b, pos).value;
      assert cs == [Chunk(b[pos..pos + 4], ReadU32(b, pos + 4), pos + 8)] + rest;
      forall k | 0 < k < |cs|
        ensures cs[k] == rest[k - 1]
      {
      }
    }
  }

  /**
   * The chunks the scan reports follow one another without gaps, the first
   * right after its header at pos, and at most 4 bytes remain after the last.
   */
  lemma {:induction false} ScannedChunksAdjacent(b: seq<byte>, pos: nat)
    requires pos <= |b| && ScanFrom(b, pos).Ok?
    ensures var cs := ScanFrom(b, pos).value;
      && (|cs| > 0 ==> cs[0].pos == pos + 8)
      && (forall k :: 0 < k < |cs| ==> cs[k].pos == cs[k - 1].pos + cs[k - 1].size + 8)
      && |b| - (if |cs| == 0 then pos else cs[|cs| - 1].pos + cs[|cs| - 1].size) <= 4
    decreases |b| - pos
  {
    if |b| - pos > 4 {
      var size := ReadU32(b, pos + 4);
      var next := pos + 8 + size;
      ScannedChunksAdjacent(b, next);
      var rest := ScanFrom(b, next).value;
      var cs := ScanFrom(b, pos).value;
      assert cs == [Chunk(b[pos..pos + 4], size, pos + 8)] + rest;
      forall k | 0 < k < |cs|
        ensures cs[k].pos == cs[k - 1].pos + cs[k - 1].size + 8
      {
        assert cs[k] == rest[k - 1];
        if k > 1 {
          assert cs[k - 1] == rest[k - 2];
        }
      }
      if |rest| > 0 {
        assert cs[|cs| - 1] == rest[|rest| - 1];
      }
    }
  }

  /** Load accepts only a stream with the RIFF and WAVE tags and a RIFF size equal to its length minus 8. */
  lemma DecodeNeedsFraming(c: Casts, b: seq<byte>)
    requires Decode(c, b).Ok?
    ensures |b| >= 12 && b[..4] == RIFF && ReadU32(b, 4) == |b| - 8 && b[8..12] == WAVE
    ensures ScanFrom(b, 12).Ok?
  {
  }

  /** A 'fmt ' chunk the reader accepts describes uncompressed PCM with 1 or 2 channels, a positive rate and a known width. */
  lemma ReadFmtAccepts(b: seq<byte>, pos: nat)
    requires ReadFmt(b, pos).Ok?
    ensures var f := ReadFmt(b, pos).value;
      && pos + 16 <= |b|
      && f == Format(ReadU16(b, pos), ReadU16(b, pos + 2), ReadU32(b, pos + 4), ReadU16(b, pos + 14))
      && f.audioFormat == 1
      && (f.channels == 1 || f.channels == 2)
      && f.sampleRate >= 1
      && SupportedBitDepth(f.bitsPerSample as int)
  {
  }

  /** When several 'fmt ' chunks are present, the last one read decides the format. */
  lemma {:induction false} LastFormatWins(b: seq<byte>, cs: seq<Chunk>, k: nat, j: nat)
    requires k <= |cs| && FormatUpTo(b, cs, k).Ok?
    requires j < k && cs[j].id == FMT
    requires forall i :: j < i < k ==> cs[i].id != FMT
    ensures FormatUpTo(b, cs, k) == ReadFmt(b, cs[j].pos)
    decreases k
  {
    if k - 1 > j {
      assert cs[k - 1].id != FMT;
      LastFormatWins(b, cs, k - 1, j);
    }
  }

  /** Without a 'fmt ' chunk the format keeps its initial all-zero values. */
  lemma {:induction false} NoFormatChunk(b: seq<byte>, cs: seq<Chunk>, k: nat)
    requires k <= |cs|
    requires forall i :: 0 <= i < k ==> cs[i].id != FMT
    ensures FormatUpTo(b, cs, k) == Ok(NoFormat)
  {
    if k > 0 {
      NoFormatChunk(b, cs, k - 1);
    }
  }

  /** Every 'fmt ' chunk, not only the last, must pass the reader's checks. */
  lemma {:induction false} EveryFormatChecked(b: seq<byte>, cs: seq<Chunk>, k: nat)
    requires k <= |cs| && FormatUpTo(b, cs, k).Ok?
    ensures forall j :: 0 <= j < k && cs[j].id == FMT ==> ReadFmt(b, cs[j].pos).Ok?
  {
    if k > 0 {
      EveryFormatChecked(b, cs, k - 1);
    }
  }

  /** The samples Construct builds: the same list for both channels, empty for stereo data. */
  lemma ConstructedShape(c: Casts, raw: seq<byte>, channels: int, bitDepth: int, sampRate: int)
    requires Constructed(c, raw, channels, bitDepth, sampRate).Ok?
    ensures var w := Constructed(c, raw, channels, bitDepth, sampRate).value;
      && (channels == 1 || channels == 2)
      && SupportedBitDepth(bitDepth)
      && sampRate >= 0
      && w.left == w.right
      && (channels == 2 ==> w.left == [])
      && (bitDepth == 24 ==> raw == [] && w.left == [])
      && (channels == 1 && bitDepth != 24 ==> |w.left| == (|raw| + bitDepth / 8 - 1) / (bitDepth / 8))
  {
    if channels == 1 && bitDepth != 24 {
      var wd := bitDepth / 8;
      var bytes := PadToFrame(raw, wd);
      PaddedToWhole(|raw|, wd);
      assert |bytes| == |raw| + PadCount(|raw|, wd);
    }
  }

  /** Padding to whole samples rounds the length up to the next multiple of the sample width. */
  lemma PaddedToWhole(n: nat, w: nat)
    requires w == 1 || w == 2 || w == 4
    ensures (n + PadCount(n, w)) % w == 0
    ensures (n + PadCount(n, w)) / w == (n + w - 1) / w
    ensures PadCount(n, w) < w
  {
    var q := n / w;
    var r := n % w;
    assert n == q * w + r;
    if r == 0 {
      assert (n + w - 1) / w == q by {
        assert n + w - 1 == q * w + (w - 1);
      }
    } else {
      assert n + PadCount(n, w) == (q + 1) * w;
      assert (n + w - 1) / w == q + 1 by {
        assert n + w - 1 == (q + 1) * w + (r - 1);
      }
    }
  }

  /** The 'data' loop appends the same samples to both channels, and nothing for a stereo format. */
  lemma {:induction false} DataChannelsAgree(c: Casts, b: seq<byte>, cs: seq<Chunk>, f: Format, k: nat)
    requires k <= |cs| && DataUpTo(c, b, cs, f, k).Ok?
    ensures DataUpTo(c, b, cs, f, k).value.left == DataUpTo(c, b, cs, f, k).value.right
    ensures f.channels == 2 ==> DataUpTo(c, b, cs, f, k).value == Channels([], [])
  {
    if k > 0 {
      DataChannelsAgree(c, b, cs, f, k - 1);
      var ch := cs[k - 1];
      if ch.id == DATA && ch.pos + ch.size <= |b| && ch.size < 0x8000_0000 {
        ConstructedShape(c, b[ch.pos..ch.pos + ch.size], f.channels as int, f.bitsPerSample as int, Int32Of(f.sampleRate) as int);
      }
    }
  }

  /** A 'data' chunk can only be read once a 'fmt ' chunk has set a channel count. */
  lemma {:induction false} DataNeedsChannels(c: Casts, b: seq<byte>, cs: seq<Chunk>, f: Format, k: nat)
    requires k <= |cs| && DataUpTo(c, b, cs, f, k).Ok?
    requires f.channels != 1 && f.channels != 2
    ensures forall j :: 0 <= j < k ==> cs[j].id != DATA
  {
    if k > 0 {
      DataNeedsChannels(c, b, cs, f, k - 1);
    }
  }

  /** A stream Load accepts ends with its 'data' chunk, unless it has no chunk at all. */
  lemma DataChunkLast(c: Casts, b: seq<byte>, cs: seq<Chunk>, f: Format)
    requires DataUpTo(c, b, cs, f, |cs|).Ok?
    ensures |cs| == 0 || cs[|cs| - 1].id == DATA
  {
  }

  /**
   * What a successful Load guarantees: the stream is framed, its last chunk
   * is 'data' and a 'fmt ' chunk precedes the data, both channels receive
   * the same samples, and a stereo format yields no samples at all.
   */
  lemma DecodedShape(c: Casts, b: seq<byte>)
    requires Decode(c, b).Ok?
    ensures ScanFrom(b, 12).Ok? && FormatUpTo(b, ScanFrom(b, 12).value, |ScanFrom(b, 12).value|).Ok?
    ensures var cs := ScanFrom(b, 12).value;
      var f := FormatUpTo(b, cs, |cs|).value;
      var w := Decode(c, b).value;
      && (|cs| == 0 || cs[|cs| - 1].id == DATA)
      && (|cs| > 0 ==> exists j :: 0 <= j < |cs| && cs[j].id == FMT && ReadFmt(b, cs[j].pos) == Ok(f))
      && w.left == w.right
      && (f.channels == 2 ==> w.left == [])
  {
    DecodeNeedsFraming(c, b);
    var cs := ScanFrom(b, 12).value;
    var f := FormatUpTo(b, cs, |cs|).value;
    DataChunkLast(c, b, cs, f);
    DataChannelsAgree(c, b, cs, f, |cs|);
    if |cs| > 0 {
      if forall i :: 0 <= i < |cs| ==> cs[i].id != FMT {
        NoFormatChunk(b, cs, |cs|);
        DataNeedsChannels(c, b, cs, f, |cs|);
        assert false;
      }
      var i :| 0 <= i < |cs| && cs[i].id == FMT;
      var j := LastFormat(cs, i);
      LastFormatWins(b, cs, |cs|, j);
    }
  }

  /** The index of the last 'fmt ' chunk, given that the one at index i is one. */
  lemma LastFormat(cs: seq<Chunk>, i: nat) returns (j: nat)
    requires i < |cs| && cs[i].id == FMT
    ensures i <= j < |cs| && cs[j].id == FMT
    ensures forall k :: j < k < |cs| ==> cs[k].id != FMT
    decreases |cs| - i
  {
    if exists k :: i < k < |cs| && cs[k].id == FMT {
      var k :| i < k < |cs| && cs[k].id == FMT;
      j := LastFormat(cs, k);
    } else {
      j := i;
    }
  }
}

=== FILE: round_trip.dfy ===
/**
 * What Load makes of the bytes Serialize writes. Only the layouts whose two
 * size fields agree with the stream's length can be read back: mono 16-bit,
 * stereo 32-bit and the empty store. Every other non-empty layout is
 * rejected by the RIFF size check, and stereo data is read back as nothing.
 */
module RoundTrip {
  import opened Wrappers
  import opened LittleEndian
  import opened Samples
  import opened WaveFormat
  import opened WriterProperties

  /** A channel after each sample has been cast to a 16-bit integer and widened back. */
  function Through16(c: Casts, s: seq<Sample>): seq<Sample>
  {
    seq(|s|, i requires 0 <= i < |s| => c.fromShort(c.toShort(s[i])))
  }

  /** The layouts for which the writer's size fields match what it writes. */
  predicate SizesConsistent(channels: int32, bitDepth: int32, n: nat)
  {
    n == 0 || (channels == 1 && bitDepth == 16) || (channels == 2 && bitDepth == 32)
  }

  /** The reader accepts the writer's 'fmt ' chunk exactly when the sample rate is positive, and reads back its values. */
  lemma WrittenFormatReadBack(c: Casts, left: seq<Sample>, right: seq<Sample>, channels: int32, bitDepth: int32, sampRate: int32)
    requires Encode(c, left, right, channels, bitDepth, sampRate).Ok?
    ensures var out := Encode(c, left, right, channels, bitDepth, sampRate).value;
      ReadFmt(out, 20) ==
        if sampRate >= 1 then Ok(Format(1, channels as u16, sampRate as u32, bitDepth as u16))
        else Err(SampleRateInFile)
  {
    SerializedHeader(c, left, right, channels, bitDepth, sampRate);
  }

  /** The header facts of a stream whose size fields agree with its length. */
  predicate TwoChunkHeader(out: seq<byte>)
  {
    && |out| >= 44
    && out[0..4] == RIFF
    && ReadU32(out, 4) == |out| - 8
    && out[8..12] == WAVE
    && out[12..16] == FMT
    && ReadU32(out, 16) == 16
    && out[36..40] == DATA
    && ReadU32(out, 40) == |out| - 44
  }

  /** A stream with such a header holds exactly a 'fmt ' chunk at 20 and a 'data' chunk at 44 that runs to the end. */
  lemma TwoChunks(out: seq<byte>)
    requires TwoChunkHeader(out)
    ensures ScanFrom(out, 12) == Ok([Chunk(FMT, 16, 20), Chunk(DATA, ReadU32(out, 40), 44)])
  {
    var size := ReadU32(out, 40);
    var data := Chunk(DATA, size, 44);
    assert ScanFrom(out, |out|) == Ok([]);
    assert 36 + 8 + size as int == |out|;
    assert ScanFrom(out, 36) == Prepend([data], ScanFrom(out, |out|));
    assert [data] + [] == [data];
    assert ScanFrom(out, 12) == Prepend([Chunk(FMT, 16, 20)], ScanFrom(out, 36));
    assert [Chunk(FMT, 16, 20)] + [data] == [Chunk(FMT, 16, 20), data];
  }

  /** Load of such a stream with an accepted 'fmt ' chunk is Construct applied to everything after byte 44. */
  lemma DecodeTwoChunks(c: Casts, out: seq<byte>, f: Format)
    requires TwoChunkHeader(out) && |out| - 44 < 0x8000_0000
    requires ReadFmt(out, 20) == Ok(f) && f.sampleRate < 0x8000_0000
    ensures Decode(c, out) == Constructed(c, out[44..], f.channels as int, f.bitsPerSample as int, f.sampleRate as int)
  {
    TwoChunks(out);
    assert out[..4] == out[0..4];
    var cs := [Chunk(FMT, 16, 20), Chunk(DATA, ReadU32(out, 40), 44)];
    assert DATA != FMT by {
      assert DATA[0] != FMT[0];
    }
    assert FormatUpTo(out, cs, 1) == Ok(f);
    assert FormatUpTo(out, cs, 2) == Ok(f);
    assert Decode(c, out) == DataUpTo(c, out, cs, f, 2);
    DataOfTwoChunks(c, out, f);
  }

  /** The 'data' loop over a 'fmt ' chunk and a 'data' chunk that runs to the end of the stream. */
  lemma DataOfTwoChunks(c: Casts, out: seq<byte>, f: Format)
    requires |out| >= 44 && |out| - 44 < 0x8000_0000 && ReadU32(out, 40) == |out| - 44
    requires f.sampleRate < 0x8000_0000
    ensures var cs := [Chunk(FMT, 16, 20), Chunk(DATA, ReadU32(out, 40), 44)];
      DataUpTo(c, out, cs, f, 2) == Constructed(c, out[44..], f.channels as int, f.bitsPerSample as int, f.sampleRate as int)
  {
    var d := ReadU32(out, 40);
    var cs := [Chunk(FMT, 16, 20), Chunk(DATA, d, 44)];
    assert FMT != DATA by {
      assert DATA[0] != FMT[0];
    }
    assert DataUpTo(c, out, cs, f, 1) == Ok(Channels([], []));
    assert Int32Of(f.sampleRate) == f.sampleRate;
    assert out[44..44 + d] == out[44..];
    assert DataChunkSamples(c, out, cs[1], f) == Constructed(c, out[44..], f.channels as int, f.bitsPerSample as int, f.sampleRate as int);
    match Constructed(c, out[44..], f.channels as int, f.bitsPerSample as int, f.sampleRate as int)
    case Err(e) =>
    case Ok(w) =>
      assert Channels([] + w.left, [] + w.right) == w;
  }

  /**
   * For a layout whose sizes agree and a positive rate, Load reaches the
   * 'data' chunk and its result is what Construct builds from the written
   * sample bytes with the written format.
   */
  lemma DecodeWritten(c: Casts, left: seq<Sample>, right: seq<Sample>, channels: int32, bitDepth: int32, sampRate: int32)
    requires Encode(c, left, right, channels, bitDepth, sampRate).Ok?
    requires FitsMemoryStream(channels as int, Longest(left, right))
    requires SizesConsistent(channels, bitDepth, Longest(left, right))
    requires sampRate >= 1
    ensures var out := Encode(c, left, right, channels, bitDepth, sampRate).value;
      && |out| >= 44
      && Decode(c, out) == Constructed(c, out[44..], channels as int, bitDepth as int, sampRate as int)
  {
    var out := Encode(c, left, right, channels, bitDepth, sampRate).value;
    SerializedHeader(c, left, right, channels, bitDepth, sampRate);
    SizeFieldsMatchLength(c, left, right, channels, bitDepth, sampRate);
    ConsistentStreamDecodes(c, out, channels, bitDepth, sampRate);
  }

  /** The header of a written stream whose sizes match its length leads Load straight to Construct. */
  lemma ConsistentStreamDecodes(c: Casts, out: seq<byte>, channels: int32, bitDepth: int32, sampRate: int32)
    requires 1 <= channels <= 2 && SupportedBitDepth(bitDepth) && 1 <= sampRate
    requires 44 <= |out| < 0x8000_0000 && out[0..4] == RIFF && out[8..12] == WAVE && out[12..16] == FMT && out[36..40] == DATA
    requires ReadU32(out, 4) == |out| - 8 && ReadU32(out, 16) == 16
    requires ReadU16(out, 20) == 1 && ReadU16(out, 22) == channels as int && ReadU32(out, 24) == sampRate as int
    requires ReadU16(out, 34) == bitDepth as int
    requires ReadU32(out, 40) == |out| - 44
    ensures Decode(c, out) == Constructed(c, out[44..], channels as int, bitDepth as int, sampRate as int)
  {
    var f := Format(1, channels as u16, sampRate as u32, bitDepth as u16);
    FmtFieldsAccepted(out, f);
    assert TwoChunkHeader(out);
    DecodeTwoChunks(c, out, f);
  }

  /** The reader accepts a 'fmt ' chunk at 20 holding PCM, 1 or 2 channels, a positive rate and a known width. */
  lemma FmtFieldsAccepted(out: seq<byte>, f: Format)
    requires |out| >= 36 && f.audioFormat == 1 && (f.channels == 1 || f.channels == 2) && f.sampleRate >= 1
    requires SupportedBitDepth(f.bitsPerSample as int)
    requires ReadU16(out, 20) == 1 && ReadU16(out, 22) == f.channels && ReadU32(out, 24) == f.sampleRate
    requires ReadU16(out, 34) == f.bitsPerSample
    ensures ReadFmt(out, 20) == Ok(f)
  {
  }

  /** Mono 16-bit sample bytes, padded and widened the way Construct does, give each sample through the 16-bit cast. */
  lemma {:induction false} Pcm16ReadBack(c: Casts, pl: seq<Sample>, pr: seq<Sample>, n: nat)
    requires n <= |pl| && n <= |pr|
    ensures var body := BodyUpTo(c, 1, 16, pl, pr, n);
      Widened(c, PadToFrame(body, 2), 16) == Through16(c, pl[..n])
  {
    var body := BodyUpTo(c, 1, 16, pl, pr, n);
    BodyLength(c, 1, 16, pl, pr, n);
    assert PadCount(|body|, 2) == 0;
    assert PadToFrame(body, 2) == body;
    var widened := Widen16(c, body, n);
    assert Widened(c, body, 16) == widened;
    forall j | 0 <= j < n
      ensures widened[j] == c.fromShort(c.toShort(pl[j]))
    {
      MonoBodyAt(c, 16, pl, pr, n, j);
      var v := Int16Bits(c.toShort(pl[j]));
      var s := body[2 * j..2 * j + 2];
      assert s == U16Bytes(v);
      assert body[2 * j] == s[0] && body[2 * j + 1] == s[1];
      U16RoundTrip(v);
      assert ReadU16(body, 2 * j) == v;
      Int16RoundTrip(c.toShort(pl[j]), v);
    }
    assert widened == Through16(c, pl[..n]);
  }

  /** Construct on mono 16-bit sample bytes as written gives each sample through the 16-bit cast, in both channels. */
  lemma Pcm16Constructed(c: Casts, pl: seq<Sample>, pr: seq<Sample>, sampRate: int32)
    requires |pl| == |pr| && 0 <= sampRate
    ensures var w := Through16(c, pl);
      Constructed(c, BodyUpTo(c, 1, 16, pl, pr, |pl|), 1, 16, sampRate as int) == Ok(Channels(w, w))
  {
    var body := BodyUpTo(c, 1, 16, pl, pr, |pl|);
    Pcm16ReadBack(c, pl, pr, |pl|);
    assert pl[..|pl|] == pl;
  }

  /**
   * Mono 16-bit round trip: Load reads back every sample of the padded
   * channel, each one passed through the 16-bit integer cast.
   */
  lemma MonoPcm16RoundTrip(c: Casts, left: seq<Sample>, right: seq<Sample>, sampRate: int32)
    requires 1 <= sampRate
    requires FitsMemoryStream(1, Longest(left, right))
    ensures Encode(c, left, right, 1, 16, sampRate).Ok?
    ensures var n := Longest(left, right);
      var w := Through16(c, Padded(left, n));
      Decode(c, Encode(c, left, right, 1, 16, sampRate).value) == Ok(Channels(w, w))
  {
    var n := Longest(left, right);
    var pl, pr := Padded(left, n), Padded(right, n);
    DecodeWritten(c, left, right, 1, 16, sampRate);
    SerializedLayout(c, left, right, 1, 16, sampRate);
    PaddedShape(left, n);
    PaddedShape(right, n);
    Pcm16Constructed(c, pl, pr, sampRate);
  }

  /** When the casts return every sample unchanged, including silence, mono 16-bit reads back exactly the padded channel. */
  lemma MonoPcm16Exact(c: Casts, left: seq<Sample>, right: seq<Sample>, sampRate: int32)
    requires 1 <= sampRate
    requires FitsMemoryStream(1, Longest(left, right))
    requires c.fromShort(c.toShort(Silence)) == Silence
    requires forall i :: 0 <= i < |left| ==> c.fromShort(c.toShort(left[i])) == left[i]
    ensures var n := Longest(left, right);
      Decode(c, Encode(c, left, right, 1, 16, sampRate).value) == Ok(Channels(Padded(left, n), Padded(left, n)))
  {
    var n := Longest(left, right);
    MonoPcm16RoundTrip(c, left, right, sampRate);
    PaddedShape(left, n);
    assert Through16(c, Padded(left, n)) == Padded(left, n);
  }

  /** Stereo 32-bit streams pass every check of the reader, but Load appends no samples for them. */
  lemma Stereo32LoadsNothing(c: Casts, left: seq<Sample>, right: seq<Sample>, sampRate: int32)
    requires 1 <= sampRate
    requires FitsMemoryStream(2, Longest(left, right))
    ensures Encode(c, left, right, 2, 32, sampRate).Ok?
    ensures Decode(c, Encode(c, left, right, 2, 32, sampRate).value) == Ok(Channels([], []))
  {
    DecodeWritten(c, left, right, 2, 32, sampRate);
  }

  /** An empty store written with any valid format and a positive rate is read back as an empty store. */
  lemma EmptyStoreRoundTrip(c: Casts, channels: int32, bitDepth: int32, sampRate: int32)
    requires ValidWriteParams(channels, bitDepth, sampRate) && 1 <= sampRate
    ensures Encode(c, [], [], channels, bitDepth, sampRate).Ok?
    ensures Decode(c, Encode(c, [], [], channels, bitDepth, sampRate).value) == Ok(Channels([], []))
  {
    var out := Encode(c, [], [], channels, bitDepth, sampRate).value;
    DecodeWritten(c, [], [], channels, bitDepth, sampRate);
    SerializedLayout(c, [], [], channels, bitDepth, sampRate);
    assert |out| == 44;
    assert out[44..] == [];
    ConstructedOfNothing(c, channels as int, bitDepth as int, sampRate as int);
  }

  /** Construct on no bytes, with valid arguments, builds an empty wave. */
  lemma ConstructedOfNothing(c: Casts, channels: int, bitDepth: int, sampRate: int)
    requires 1 <= channels <= 2 && SupportedBitDepth(bitDepth) && 0 <= sampRate
    ensures Constructed(c, [], channels, bitDepth, sampRate) == Ok(Channels([], []))
  {
    var w := bitDepth / 8;
    assert PadCount(0, w) == 0;
    assert PadToFrame([], w) == [];
    if bitDepth != 24 {
      assert Widened(c, [], bitDepth) == [];
    }
  }

  /** Every other non-empty layout is rejected by Load because the RIFF size does not match the stream's length. */
  lemma OtherLayoutsRejected(c: Casts, left: seq<Sample>, right: seq<Sample>, channels: int32, bitDepth: int32, sampRate: int32)
    requires Encode(c, left, right, channels, bitDepth, sampRate).Ok?
    requires FitsMemoryStream(channels as int, Longest(left, right))
    requires !SizesConsistent(channels, bitDepth, Longest(left, right))
    ensures Decode(c, Encode(c, left, right, channels, bitDepth, sampRate).value) == Err(RiffSizeMismatch)
  {
    var out := Encode(c, left, right, channels, bitDepth, sampRate).value;
    SerializedHeader(c, left, right, channels, bitDepth, sampRate);
    SizeFieldsMatchLength(c, left, right, channels, bitDepth, sampRate);
    assert out[..4] == out[0..4];
  }

  /** The writer accepts a sample rate of 0, but the reader rejects the stream it produces. */
  lemma ZeroRateUnreadable(c: Casts, left: seq<Sample>, right: seq<Sample>, channels: int32, bitDepth: int32)
    requires Encode(c, left, right, channels, bitDepth, 0).Ok?
    requires FitsMemoryStream(channels as int, Longest(left, right))
    ensures Decode(c, Encode(c, left, right, channels, bitDepth, 0).value).Err?
  {
    var out := Encode(c, left, right, channels, bitDepth, 0).value;
    var n := Longest(left, right);
    if SizesConsistent(channels, bitDepth, n) {
      SerializedHeader(c, left, right, channels, bitDepth, 0);
      SizeFieldsMatchLength(c, left, right, channels, bitDepth, 0);
      SerializedLayout(c, left, right, channels, bitDepth, 0);
      WrittenFormatReadBack(c, left, right, channels, bitDepth, 0);
      assert TwoChunkHeader(out);
      TwoChunks(out);
      assert out[..4] == out[0..4];
      var cs := [Chunk(FMT, 16, 20), Chunk(DATA, ReadU32(out, 40), 44)];
      assert FormatUpTo(out, cs, 1) == Err(SampleRateInFile);
    } else {
      OtherLayoutsRejected(c, left, right, channels, bitDepth, 0);
    }
  }
}

=== FILE: samples.dfy ===
/**
 * Samples. The store keeps single-precision floats; a sample is modelled by
 * its IEEE-754 bit pattern, which is exactly what BitConverter.GetBytes(float)
 * and BitConverter.ToSingle copy. The numeric casts between floats and the
 * integer PCM widths are not modelled: they are the fields of a `Casts`
 * record that every codec operation takes as a parameter.
 */
module Samples {
  import opened LittleEndian

  /** A 32-bit float sample, as its IEEE-754 bit pattern. */
  datatype Sample = Sample(bits: u32)

  /** The float 0.0f, used as silence when a channel is padded. */
  const Silence: Sample := Sample(0)

  /**
   * The float/integer conversions of the C# runtime: the unchecked narrowing
   * casts (byte)f and (short)f, and the widenings (float)b and (float)s.
   */
  datatype Casts = Casts(
    toByte: Sample -> byte,
    toShort: Sample -> int16,
    fromByte: byte -> Sample,
    fromShort: int16 -> Sample)

  /** BitConverter.GetBytes(float): the 4 bytes of the pattern, low byte first. */
  function FloatBytes(s: Sample): (r: seq<byte>)
    ensures |r| == 4
  {
    U32Bytes(s.bits)
  }

  /** BitConverter.ToSingle(bytes, at). */
  function FloatFromBytes(b: seq<byte>, at: nat): Sample
    requires at + 4 <= |b|
  {
    Sample(ReadU32(b, at))
  }

  /** Reinterpreting the bytes of a float gives back the same float. */
  lemma FloatBytesRoundTrip(s: Sample)
    ensures FloatFromBytes(FloatBytes(s), 0) == s
  {
    U32RoundTrip(s.bits);
  }
}

=== FILE: wav.dfy ===
/**
 * The class Wav of Wav.cs: two channels of samples that the methods grow,
 * splice, slice and clear in place, the writer that pads them and emits a
 * RIFF/WAVE stream, and the reader that appends a stream's samples.
 */
module WavStore {
  import opened Wrappers
  import opened LittleEndian
  import opened Samples
  import opened WaveFormat
  import opened WaveFormatFacts

  /** List<T>.GetRange(index, count) on a list of length len: the exception it throws, if any. */
  function RangeFailure(index: int, count: int, len: nat): (e: Option<WavError>)
    ensures e.None? <==> 0 <= index && 0 <= count && index + count <= len
  {
    if index < 0 || count < 0 then Some(IndexOutOfRange)
    else if len - index < count then Some(InvalidRange)
    else None
  }

  /** List<T>.InsertRange(index, ...) on a list of length len: the exception it throws, if any. */
  function InsertFailure(index: int, len: nat): (e: Option<WavError>)
    ensures e.None? <==> 0 <= index <= len
  {
    if index < 0 || index > len then Some(IndexOutOfRange) else None
  }

  /**
   * After a failure in the 'data' loop: the channels hold their samples from
   * before the loop followed by those of the chunks before index k, all of
   * which were read successfully.
   */
  predicate PartlyAppended(c: Casts, b: seq<byte>, chunks: seq<Chunk>, f: Format, k: nat,
                           leftBefore: seq<Sample>, rightBefore: seq<Sample>, left: seq<Sample>, right: seq<Sample>)
  {
    && k < |chunks|
    && DataUpTo(c, b, chunks, f, k).Ok?
    && left == leftBefore + DataUpTo(c, b, chunks, f, k).value.left
    && right == rightBefore + DataUpTo(c, b, chunks, f, k).value.right
  }

  class Wav {
    var left: seq<Sample>
    var right: seq<Sample>

    /** An empty wave. */
    constructor ()
      ensures left == [] && right == []
    {
      left, right := [], [];
    }

    /** A wave with the samples copied to both channels (also the explicit conversion from a sample list). */
    constructor FromSamples(samples: seq<Sample>)
      ensures left == samples && right == samples
    {
      left, right := samples, samples;
    }

    /** A wave over the given channels. */
    constructor FromChannels(leftChannel: seq<Sample>, rightChannel: seq<Sample>)
      ensures left == leftChannel && right == rightChannel
    {
      left, right := leftChannel, rightChannel;
    }

    /** A copy of another wave's samples. */
    constructor Copy(wav: Wav)
      ensures left == wav.left && right == wav.right
    {
      left, right := wav.left, wav.right;
    }

    /** The length of the longer channel. */
    function Length(): (n: nat)
      reads this
      ensures |left| <= n && |right| <= n
      ensures n == |left| || n == |right|
    {
      Longest(left, right)
    }

    /** Copies the samples to the end of both channels. */
    method Add(samples: seq<Sample>)
      modifies this
      ensures left == old(left) + samples && right == old(right) + samples
    {
      left := left + samples;
      right := right + samples;
    }

    /** Copies each list to the end of its channel. */
    method AddChannels(leftChannel: seq<Sample>, rightChannel: seq<Sample>)
      modifies this
      ensures left == old(left) + leftChannel && right == old(right) + rightChannel
    {
      left := left + leftChannel;
      right := right + rightChannel;
    }

    /** Copies another wave's channels to the end of this one's (the wave may be this one). */
    method AddWav(wav: Wav)
      modifies this
      ensures left == old(left) + old(wav.left) && right == old(right) + old(wav.right)
    {
      left := left + wav.left;
      right := right + wav.right;
    }

    method AddLeft(samples: seq<Sample>)
      modifies this
      ensures left == old(left) + samples && right == old(right)
    {
      left := left + samples;
    }

    method AddRight(samples: seq<Sample>)
      modifies this
      ensures left == old(left) && right == old(right) + samples
    {
      right := right + samples;
    }

    method Clear()
      modifies this
      ensures left == [] && right == []
    {
      left := [];
      right := [];
    }

    /** A new wave holding count samples of each channel from index on; the left channel is checked first. */
    method GetRange(index: int32, count: int32) returns (r: Result<Wav, WavError>)
      ensures r.Ok? <==> 0 <= index && 0 <= count && index + count <= |left| && index + count <= |right|
      ensures r.Ok? ==> (fresh(r.value)
        && r.value.left == left[index..index + count] && r.value.right == right[index..index + count])
      ensures r.Err? ==> r.error == (if RangeFailure(index, count, |left|).Some?
                                     then RangeFailure(index, count, |left|).value
                                     else RangeFailure(index, count, |right|).value)
    {
      var failure := RangeFailure(index, count, |left|);
      if failure.Some? { return Err(failure.value); }
      failure := RangeFailure(index, count, |right|);
      if failure.Some? { return Err(failure.value); }
      var wav := new Wav.FromChannels(left[index..index + count], right[index..index + count]);
      return Ok(wav);
    }

    /**
     * Inserts the samples at index in both channels. The left channel is
     * spliced first, so an index that fits the left channel but not the
     * right one changes the left channel and then fails.
     */
    method Insert(index: int32, samples: seq<Sample>) returns (failure: Option<WavError>)
      modifies this
      ensures failure == (if 0 <= index <= |old(left)| then InsertFailure(index, |old(right)|) else Some(IndexOutOfRange))
      ensures left == (if 0 <= index <= |old(left)| then old(left)[..index] + samples + old(left)[index..] else old(left))
      ensures right == (if failure.None? then old(right)[..index] + samples + old(right)[index..] else old(right))
    {
      failure := InsertFailure(index, |left|);
      if failure.Some? { return; }
      left := left[..index] + samples + left[index..];
      failure := InsertFailure(index, |right|);
      if failure.Some? { return; }
      right := right[..index] + samples + right[index..];
    }

    /** Inserts each list at index in its channel, left first. */
    method InsertChannels(index: int32, leftChannel: seq<Sample>, rightChannel: seq<Sample>) returns (failure: Option<WavError>)
      modifies this
      ensures failure == (if 0 <= index <= |old(left)| then InsertFailure(index, |old(right)|) else Some(IndexOutOfRange))
      ensures left == (if 0 <= index <= |old(left)| then old(left)[..index] + leftChannel + old(left)[index..] else old(left))
      ensures right == (if failure.None? then old(right)[..index] + rightChannel + old(right)[index..] else old(right))
    {
      failure := InsertFailure(index, |left|);
      if failure.Some? { return; }
      left := left[..index] + leftChannel + left[index..];
      failure := InsertFailure(index, |right|);
      if failure.Some? { return; }
      right := right[..index] + rightChannel + right[index..];
    }

    /** Inserts another wave's channels at index (the wave may be this one), left first. */
    method InsertWav(wav: Wav, index: int32) returns (failure: Option<WavError>)
      modifies this
      ensures failure == (if 0 <= index <= |old(left)| then InsertFailure(index, |old(right)|) else Some(IndexOutOfRange))
      ensures left == (if 0 <= index <= |old(left)| then old(left)[..index] + old(wav.left) + old(left)[index..] else old(left))
      ensures right == (if failure.None? then old(right)[..index] + old(wav.right) + old(right)[index..] else old(right))
    {
      var insertedLeft, insertedRight := wav.left, wav.right;
      failure := InsertFailure(index, |left|);
      if failure.Some? { return; }
      left := left[..index] + insertedLeft + left[index..];
      failure := InsertFailure(index, |right|);
      if failure.Some? { return; }
      right := right[..index] + insertedRight + right[index..];
    }

    /** wav1 + wav2: a copy of wav1 with wav2's channels appended; neither operand changes. */
    static method Concat(wav1: Wav, wav2: Wav) returns (result: Wav)
      ensures fresh(result)
      ensures result.left == wav1.left + wav2.left && result.right == wav1.right + wav2.right
    {
      result := new Wav.Copy(wav1);
      result.AddWav(wav2);
    }

    /** wav + samples: a copy of wav with the samples appended to both channels. */
    static method Append(wav: Wav, samples: seq<Sample>) returns (result: Wav)
      ensures fresh(result)
      ensures result.left == wav.left + samples && result.right == wav.right + samples
    {
      result := new Wav.Copy(wav);
      result.Add(samples);
    }

    /**
     * Serialize(channels, bitDepth, sampRate) to a memory stream. Before the
     * first byte is produced the parameters are checked; while the samples
     * are written the shorter channel is padded with silence in place.
     */
    method Serialize(c: Casts, channels: int32, bitDepth: int32, sampRate: int32) returns (r: Result<seq<byte>, WavError>)
      modifies this
      ensures r == Encode(c, old(left), old(right), channels, bitDepth, sampRate)
      ensures !ValidWriteParams(channels, bitDepth, sampRate) ==> left == old(left) && right == old(right)
      ensures r.Ok? ==> left == Padded(old(left), old(Length())) && right == Padded(old(right), old(Length()))
      ensures r == Err(NotImplemented) ==> left == Padded(old(left), 1) && right == Padded(old(right), 1)
    {
      if channels < 1 || channels > 2 { return Err(UnsupportedChannelCount); }
      if !SupportedBitDepth(bitDepth) { return Err(UnsupportedBitDepth); }
      if sampRate < 0 { return Err(NegativeSampleRate); }

      var sampleLength := Length();
      var dataChunkSize: u32 := (sampleLength * (bitDepth / 8)) % 0x1_0000_0000;
      var headerSize: u32 := (36 + dataChunkSize) % 0x1_0000_0000;
      var blockAlign: u16 := channels * (bitDepth / 8);
      assert dataChunkSize == DataChunkSize(sampleLength, bitDepth as int);
      assert headerSize == RiffSize(sampleLength, bitDepth as int);
      assert blockAlign == BlockAlign(channels as int, bitDepth as int);

      var ms := RIFF + U32Bytes(headerSize) + WAVE;
      ms := ms + FMT + U32Bytes(16) + U16Bytes(1) + U16Bytes(channels as int)
        + U32Bytes(sampRate as int) + U32Bytes((sampRate as int * blockAlign) % 0x1_0000_0000)
        + U16Bytes(blockAlign) + U16Bytes(bitDepth as int);
      ms := ms + DATA + U32Bytes(dataChunkSize);
      assert ms == Header(channels, bitDepth, sampRate, sampleLength);

      r := WriteSamples(c, channels, bitDepth, ms);
    }

    /**
     * The sample loop of Serialize: for each index below Length() it pads a
     * channel that is too short with one silent sample, then appends the
     * index's bytes to the stream ms. A 24-bit write throws at the first index.
     */
    method WriteSamples(c: Casts, channels: int, bitDepth: int, ms: seq<byte>) returns (r: Result<seq<byte>, WavError>)
      requires 1 <= channels <= 2 && SupportedBitDepth(bitDepth)
      modifies this
      ensures bitDepth == 24 ==> r == if old(Length()) > 0 then Err(NotImplemented) else Ok(ms)
      ensures bitDepth != 24 ==>
        r == Ok(ms + BodyUpTo(c, channels, bitDepth, Padded(old(left), old(Length())), Padded(old(right), old(Length())), old(Length())))
      ensures r.Ok? ==> left == Padded(old(left), old(Length())) && right == Padded(old(right), old(Length()))
      ensures r.Err? ==> left == Padded(old(left), 1) && right == Padded(old(right), 1)
    {
      var sampleLength := Length();
      ghost var paddedLeft, paddedRight := Padded(left, sampleLength), Padded(right, sampleLength);
      var out := ms;
      assert Padded(left, 0) == left && Padded(right, 0) == right;
      assert WrittenBitDepth(bitDepth) ==> ms + BodyUpTo(c, channels, bitDepth, paddedLeft, paddedRight, 0) == ms;
      for i := 0 to sampleLength
        invariant left == Padded(old(left), i) && right == Padded(old(right), i)
        invariant bitDepth == 24 ==> i == 0 && out == ms
        invariant bitDepth != 24 ==> out == ms + BodyUpTo(c, channels, bitDepth, paddedLeft, paddedRight, i)
      {
        PaddedStep(old(left), i, sampleLength);
        PaddedStep(old(right), i, sampleLength);
        if i >= |left| {
          left := left + [Silence];
        }
        if i >= |right| {
          right := right + [Silence];
        }
        assert left[i] == paddedLeft[i] && right[i] == paddedRight[i];
        if bitDepth == 24 {
          return Err(NotImplemented);
        }
        out := WriteFrame(c, channels, bitDepth, i, out);
        BodyStep(c, channels, bitDepth, paddedLeft, paddedRight, ms, i);
      }
      return Ok(out);
    }

    /** One index of the sample loop: the left sample's bytes, then the right sample's in stereo. */
    method WriteFrame(c: Casts, channels: int, bitDepth: int, i: nat, ms: seq<byte>) returns (out: seq<byte>)
      requires WrittenBitDepth(bitDepth) && i < |left| && i < |right|
      ensures out == ms + FrameBytes(c, channels, bitDepth, left[i], right[i])
    {
      out := ms;
      if bitDepth == 8 {
        out := out + U16Bytes(c.toByte(left[i]));
        if channels == 2 {
          out := out + U16Bytes(c.toByte(right[i]));
        }
      } else if bitDepth == 16 {
        out := out + U16Bytes(Int16Bits(c.toShort(left[i])));
        if channels == 2 {
          out := out + U16Bytes(Int16Bits(c.toShort(right[i])));
        }
      } else {
        out := out + FloatBytes(left[i])[..2];
        if channels == 2 {
          out := out + FloatBytes(right[i])[..2];
        }
      }
      FrameWritten(c, channels, bitDepth, ms, out, left[i], right[i]);
    }

    /** The chunk scan of Load: from offset 12, each chunk header is followed by as many bytes as it declares. */
    static method ScanChunks(b: seq<byte>) returns (r: Result<seq<Chunk>, WavError>)
      requires 12 <= |b|
      ensures r == ScanFrom(b, 12)
    {
      var chunks: seq<Chunk> := [];
      var pos := 12;
      PrependNothing(ScanFrom(b, 12));
      while |b| - pos > 4
        invariant 12 <= pos <= |b|
        invariant ScanFrom(b, 12) == Prepend(chunks, ScanFrom(b, pos))
        decreases |b| - pos
      {
        var name := b[pos..pos + 4];
        if |b| - (pos + 4) < 4 { return Err(EndOfStream); }
        var size := ReadU32(b, pos + 4);
        var chunkPos := pos + 8;
        if chunkPos + size > |b| { return Err(ChunkSizeMismatch); }
        PrependTwice(chunks, [Chunk(name, size, chunkPos)], ScanFrom(b, chunkPos + size));
        chunks := chunks + [Chunk(name, size, chunkPos)];
        pos := chunkPos + size;
      }
      assert ScanFrom(b, pos) == Ok([]);
      assert chunks + [] == chunks;
      return Ok(chunks);
    }

    /** The 'fmt ' loop of Load: every 'fmt ' chunk is read and checked, and the last one's values are kept. */
    static method ReadFormats(b: seq<byte>, chunks: seq<Chunk>) returns (r: Result<Format, WavError>)
      ensures r == FormatUpTo(b, chunks, |chunks|)
    {
      var audioFormat: u16, numChannels: u16, sampRate: u32, bitsPerSample: u16 := 0, 0, 0, 0;
      for i := 0 to |chunks|
        invariant FormatUpTo(b, chunks, i) == Ok(Format(audioFormat, numChannels, sampRate, bitsPerSample))
      {
        if chunks[i].id == FMT {
          var pos := chunks[i].pos;
          if pos + 2 > |b| { FormatErrorPersists(b, chunks, i + 1, |chunks|); return Err(EndOfStream); }
          audioFormat := ReadU16(b, pos);
          if audioFormat != 1 { FormatErrorPersists(b, chunks, i + 1, |chunks|); return Err(CompressedFormat); }
          if pos + 4 > |b| { FormatErrorPersists(b, chunks, i + 1, |chunks|); return Err(EndOfStream); }
          numChannels := ReadU16(b, pos + 2);
          if numChannels != 1 && numChannels != 2 {
            FormatErrorPersists(b, chunks, i + 1, |chunks|);
            return Err(ChannelCountInFile);
          }
          if pos + 8 > |b| { FormatErrorPersists(b, chunks, i + 1, |chunks|); return Err(EndOfStream); }
          sampRate := ReadU32(b, pos + 4);
          if sampRate < 1 { FormatErrorPersists(b, chunks, i + 1, |chunks|); return Err(SampleRateInFile); }
          // the byte rate and block align fields are read past
          if pos + 16 > |b| { FormatErrorPersists(b, chunks, i + 1, |chunks|); return Err(EndOfStream); }
          bitsPerSample := ReadU16(b, pos + 14);
          if bitsPerSample != 8 && bitsPerSample != 16 && bitsPerSample != 24 && bitsPerSample != 32 {
            FormatErrorPersists(b, chunks, i + 1, |chunks|);
            return Err(BitDepthInFile);
          }
        }
        // The source's "'fmt ' chunk not found" branch tests i == count inside a loop over i < count and never runs.
      }
      return Ok(Format(audioFormat, numChannels, sampRate, bitsPerSample));
    }

    /** The alignment loop of Construct: zero bytes are appended until the length is a multiple of w. */
    static method AlignToSamples(samples: seq<byte>, w: nat) returns (bytes: seq<byte>)
      requires 1 <= w <= 4
      ensures bytes == PadToFrame(samples, w)
    {
      bytes := samples;
      while |bytes| % w != 0
        invariant |samples| <= |bytes| <= |samples| + PadCount(|samples|, w)
        invariant bytes == samples + Zeros(|bytes| - |samples|)
        decreases |samples| + PadCount(|samples|, w) - |bytes|
      {
        PadCountExact(|samples|, |bytes| - |samples|, w);
        bytes := bytes + [0];
      }
      PadCountExact(|samples|, |bytes| - |samples|, w);
    }

    /** The conversion loops of Construct for 8, 16 and 32 bits: one sample per group of bitDepth / 8 bytes. */
    static method WidenSamples(c: Casts, bytes: seq<byte>, bitDepth: int) returns (sampleData: seq<Sample>)
      requires WrittenBitDepth(bitDepth) && |bytes| % (bitDepth / 8) == 0
      ensures sampleData == Widened(c, bytes, bitDepth)
    {
      sampleData := [];
      if bitDepth == 8 {
        for i := 0 to |bytes|
          invariant sampleData == Widen8(c, bytes, i)
        {
          sampleData := sampleData + [c.fromByte(bytes[i])];
        }
      } else if bitDepth == 16 {
        var i := 0;
        while i < |bytes|
          invariant 0 <= i <= |bytes| && i % 2 == 0
          invariant sampleData == Widen16(c, bytes, i / 2)
        {
          sampleData := sampleData + [c.fromShort(Int16Of(ReadU16(bytes, i)))];
          i := i + 2;
        }
      } else {
        var i := 0;
        while i < |bytes|
          invariant 0 <= i <= |bytes| && i % 4 == 0
          invariant sampleData == Widen32(bytes, i / 4)
        {
          sampleData := sampleData + [FloatFromBytes(bytes, i)];
          i := i + 4;
        }
      }
    }

    /**
     * Construct: checks its arguments, pads the raw bytes with zeros to a
     * whole number of samples, widens each sample, and fills the channels.
     * The de-interleaving for stereo sits inside the test for mono in the
     * source and never runs, so a stereo result is empty.
     */
    static method Construct(c: Casts, samples: seq<byte>, channels: int, bitDepth: int, sampRate: int) returns (r: Result<Channels, WavError>)
      ensures r == Constructed(c, samples, channels, bitDepth, sampRate)
    {
      if channels < 1 || channels > 2 { return Err(UnsupportedChannelCount); }
      if !SupportedBitDepth(bitDepth) { return Err(UnsupportedBitDepth); }
      if sampRate < 0 { return Err(NegativeSampleRate); }

      var bytes := AlignToSamples(samples, bitDepth / 8);
      var sampleData: seq<Sample> := [];
      if bitDepth == 24 {
        // The first iteration hands a 2-byte array to BitConverter.ToSingle, which throws.
        if |bytes| > 0 { return Err(FloatBufferTooShort); }
      } else {
        PadCountExact(|samples|, PadCount(|samples|, bitDepth / 8), bitDepth / 8);
        sampleData := WidenSamples(c, bytes, bitDepth);
      }

      var leftOut: seq<Sample>, rightOut: seq<Sample> := [], [];
      if channels == 1 {
        for i := 0 to |sampleData|
          invariant leftOut == sampleData[..i] && rightOut == sampleData[..i]
        {
          leftOut := leftOut + [sampleData[i]];
          rightOut := rightOut + [sampleData[i]];
        }
        assert leftOut == sampleData;
      }
      return Ok(Channels(leftOut, rightOut));
    }

    /**
     * Load(MemoryStream): checks the RIFF header, scans the chunks, reads the
     * format, then appends the samples of every 'data' chunk. On failure the
     * samples of earlier 'data' chunks have already been appended.
     */
    method Load(c: Casts, b: seq<byte>) returns (failure: Option<WavError>)
      modifies this
      ensures failure.None? <==> Decode(c, b).Ok?
      ensures failure.Some? ==> failure.value == Decode(c, b).error
      ensures failure.None? ==> left == old(left) + Decode(c, b).value.left && right == old(right) + Decode(c, b).value.right
      ensures failure.Some? ==> old(left) <= left && old(right) <= right
    {
      if |b| < 4 || b[..4] != RIFF { return Some(NotRiff); }
      if |b| < 8 { return Some(EndOfStream); }
      var chunkSize := ReadU32(b, 4);
      if chunkSize != |b| - 8 { return Some(RiffSizeMismatch); }
      if |b| < 12 || b[8..12] != WAVE { return Some(NotWave); }

      var scanned := ScanChunks(b);
      if scanned.Err? { return Some(scanned.error); }
      var chunks := scanned.value;
      var format := ReadFormats(b, chunks);
      if format.Err? { return Some(format.error); }
      var f := format.value;

      failure := AppendData(c, b, chunks, f);
    }

    /**
     * The 'data' loop of Load: the bytes of every 'data' chunk go through
     * Construct and are appended; a chunk other than 'data' in last place
     * is reported as a missing 'data' chunk.
     */
    method AppendData(c: Casts, b: seq<byte>, chunks: seq<Chunk>, f: Format) returns (failure: Option<WavError>)
      modifies this
      ensures failure.None? <==> DataUpTo(c, b, chunks, f, |chunks|).Ok?
      ensures failure.Some? ==> failure.value == DataUpTo(c, b, chunks, f, |chunks|).error
      ensures failure.None? ==>
        left == old(left) + DataUpTo(c, b, chunks, f, |chunks|).value.left
        && right == old(right) + DataUpTo(c, b, chunks, f, |chunks|).value.right
      ensures failure.Some? ==> exists k :: PartlyAppended(c, b, chunks, f, k, old(left), old(right), left, right)
    {
      for i := 0 to |chunks|
        invariant DataUpTo(c, b, chunks, f, i).Ok?
        invariant left == old(left) + DataUpTo(c, b, chunks, f, i).value.left
        invariant right == old(right) + DataUpTo(c, b, chunks, f, i).value.right
      {
        ghost var acc := DataUpTo(c, b, chunks, f, i).value;
        if chunks[i].id == DATA {
          var w := ReadDataChunk(c, b, chunks[i], f);
          if w.Err? {
            assert DataUpTo(c, b, chunks, f, i + 1) == Err(w.error);
            DataErrorPersists(c, b, chunks, f, i + 1, |chunks|);
            assert PartlyAppended(c, b, chunks, f, i, old(left), old(right), left, right);
            return Some(w.error);
          }
          AddChannels(w.value.left, w.value.right);
          assert DataUpTo(c, b, chunks, f, i + 1) == Ok(Channels(acc.left + w.value.left, acc.right + w.value.right));
        } else if i == |chunks| - 1 {
          assert DataUpTo(c, b, chunks, f, i + 1) == Err(DataChunkMissing);
          assert PartlyAppended(c, b, chunks, f, i, old(left), old(right), left, right);
          return Some(DataChunkMissing);
        } else {
          assert DataUpTo(c, b, chunks, f, i + 1) == Ok(acc);
        }
      }
      return None;
    }

    /** The body of the 'data' loop for one 'data' chunk: the bounds checks, then Construct on the chunk's bytes. */
    static method ReadDataChunk(c: Casts, b: seq<byte>, chunk: Chunk, f: Format) returns (r: Result<Channels, WavError>)
      ensures r == DataChunkSamples(c, b, chunk, f)
    {
      var pos, size := chunk.pos, chunk.size;
      if pos + size > |b| { return Err(DataSizeInvalid); }
      if size >= 0x8000_0000 { return Err(NegativeByteCount); }
      var rawData := b[pos..pos + size];
      r := Construct(c, rawData, f.channels, f.bitsPerSample, Int32Of(f.sampleRate));
    }

    /** The constructor Wav(MemoryStream): an empty wave that Load fills, or the exception Load throws. */
    static method FromStream(c: Casts, b: seq<byte>) returns (r: Result<Wav, WavError>)
      ensures r.Ok? <==> Decode(c, b).Ok?
      ensures r.Err? ==> r.error == Decode(c, b).error
      ensures r.Ok? ==> (fresh(r.value)
        && r.value.left == Decode(c, b).value.left && r.value.right == Decode(c, b).value.right)
    {
      var wav := new Wav();
      var failure := wav.Load(c, b);
      if failure.Some? { return Err(failure.value); }
      return Ok(wav);
    }
  }
}

=== FILE: wave_format.dfy ===
/**
 * The RIFF/WAVE byte layout as Wav.cs produces and consumes it: the writer's
 * output as a function of the two channels and the format parameters, and
 * the reader's result as a function of the stream's bytes. The imperative
 * store in WavStore is proved to compute exactly these functions.
 */
module WaveFormat {
  import opened Wrappers
  import opened LittleEndian
  import opened Samples

  /** ASCII chunk tags. */
  const RIFF: seq<byte> := [0x52, 0x49, 0x46, 0x46]
  const WAVE: seq<byte> := [0x57, 0x41, 0x56, 0x45]
  const FMT: seq<byte> := [0x66, 0x6D, 0x74, 0x20]
  const DATA: seq<byte> := [0x64, 0x61, 0x74, 0x61]

  /** The exceptions the store and the codec throw, one constructor per throw site. */
  datatype WavError =
    // ArgumentException from the parameter checks of Serialize and Construct
    | UnsupportedChannelCount
    | UnsupportedBitDepth
    | NegativeSampleRate
    // NotImplementedException: writing a 24-bit sample
    | NotImplemented
    // List.GetRange / List.InsertRange: a negative argument, or a range past the end
    | IndexOutOfRange
    | InvalidRange
    // Load
    | NotRiff
    | EndOfStream
    | RiffSizeMismatch
    | NotWave
    | ChunkSizeMismatch
    | CompressedFormat
    | ChannelCountInFile
    | SampleRateInFile
    | BitDepthInFile
    | DataSizeInvalid
    | NegativeByteCount
    | DataChunkMissing
    // BitConverter.ToSingle handed a buffer shorter than 4 bytes
    | FloatBufferTooShort

  /** The samples of the two channels, as a value. */
  datatype Channels = Channels(left: seq<Sample>, right: seq<Sample>)

  predicate SupportedBitDepth(bitDepth: int)
  {
    bitDepth == 8 || bitDepth == 16 || bitDepth == 24 || bitDepth == 32
  }

  /** The length of the longer channel. */
  function Longest(left: seq<Sample>, right: seq<Sample>): nat
  {
    if |left| > |right| then |left| else |right|
  }

  // ---------------------------------------------------------------- writer

  function Silences(k: nat): seq<Sample>
  {
    seq(k, _ => Silence)
  }

  /** A channel after the writer's padding loop has run up to index n. */
  function Padded(s: seq<Sample>, n: nat): seq<Sample>
  {
    if |s| < n then s + Silences(n - |s|) else s
  }

  /** dataChunkSize: the sample count times the bytes of one sample, without the channel count, in uint arithmetic. */
  function DataChunkSize(n: nat, bitDepth: int): u32
    requires SupportedBitDepth(bitDepth)
  {
    (n * (bitDepth / 8)) % 0x1_0000_0000
  }

  /** headerSize, the RIFF chunk's size field, in uint arithmetic. */
  function RiffSize(n: nat, bitDepth: int): u32
    requires SupportedBitDepth(bitDepth)
  {
    (36 + DataChunkSize(n, bitDepth)) % 0x1_0000_0000
  }

  function BlockAlign(channels: int, bitDepth: int): u16
    requires 1 <= channels <= 2 && SupportedBitDepth(bitDepth)
  {
    channels * (bitDepth / 8)
  }

  /** The byte-rate field, (uint)sampRate * blockAlign in uint arithmetic. */
  function ByteRate(channels: int, bitDepth: int, sampRate: int): u32
    requires 1 <= channels <= 2 && SupportedBitDepth(bitDepth) && 0 <= sampRate
  {
    (sampRate * BlockAlign(channels, bitDepth)) % 0x1_0000_0000
  }

  predicate ValidWriteParams(channels: int32, bitDepth: int32, sampRate: int32)
  {
    1 <= channels <= 2 && SupportedBitDepth(bitDepth) && 0 <= sampRate
  }

  /**
   * A MemoryStream holds at most 2^31 - 1 bytes. The writer fills one with
   * the 44-byte header and 2 bytes per sample index and written channel.
   */
  predicate FitsMemoryStream(channels: int, n: nat)
  {
    44 + 2 * channels * n < 0x8000_0000
  }

  /** The 44 bytes written before the samples, for n samples per channel. */
  function Header(channels: int32, bitDepth: int32, sampRate: int32, n: nat): seq<byte>
    requires ValidWriteParams(channels, bitDepth, sampRate)
  {
    RIFF + U32Bytes(RiffSize(n, bitDepth)) + WAVE
    + FMT + U32Bytes(16) + U16Bytes(1) + U16Bytes(channels as int) + U32Bytes(sampRate as int)
    + U32Bytes(ByteRate(channels, bitDepth, sampRate)) + U16Bytes(BlockAlign(channels, bitDepth))
    + U16Bytes(bitDepth as int)
    + DATA + U32Bytes(DataChunkSize(n, bitDepth))
  }

  predicate WrittenBitDepth(bitDepth: int)
  {
    bitDepth == 8 || bitDepth == 16 || bitDepth == 32
  }

  /**
   * The bytes written for one sample. Every width writes 2 bytes: the 8-bit
   * path hands a byte to BitConverter.GetBytes, which widens it to a short,
   * and the 32-bit path writes only the first 2 of the float's 4 bytes.
   */
  function SampleBytes(c: Casts, bitDepth: int, s: Sample): (r: seq<byte>)
    requires WrittenBitDepth(bitDepth)
    ensures |r| == 2
  {
    if bitDepth == 8 then U16Bytes(c.toByte(s))
    else if bitDepth == 16 then U16Bytes(Int16Bits(c.toShort(s)))
    else FloatBytes(s)[..2]
  }

  /** The bytes written for index i: the left sample, then the right one in stereo. */
  function FrameBytes(c: Casts, channels: int, bitDepth: int, l: Sample, r: Sample): seq<byte>
    requires WrittenBitDepth(bitDepth)
  {
    SampleBytes(c, bitDepth, l) + (if channels == 2 then SampleBytes(c, bitDepth, r) else [])
  }

  /** The sample bytes written for the first k indices. */
  function BodyUpTo(c: Casts, channels: int, bitDepth: int, left: seq<Sample>, right: seq<Sample>, k: nat): seq<byte>
    requires WrittenBitDepth(bitDepth) && k <= |left| && k <= |right|
  {
    if k == 0 then []
    else BodyUpTo(c, channels, bitDepth, left, right, k - 1) + FrameBytes(c, channels, bitDepth, left[k - 1], right[k - 1])
  }

  /** What Serialize(channels, bitDepth, sampRate) returns for a store holding left and right. */
  function Encode(c: Casts, left: seq<Sample>, right: seq<Sample>, channels: int32, bitDepth: int32, sampRate: int32): Result<seq<byte>, WavError>
  {
    if channels < 1 || channels > 2 then Err(UnsupportedChannelCount)
    else if !SupportedBitDepth(bitDepth) then Err(UnsupportedBitDepth)
    else if sampRate < 0 then Err(NegativeSampleRate)
    else
      var n := Longest(left, right);
      if bitDepth == 24 then
        if n > 0 then Err(NotImplemented) else Ok(Header(channels, bitDepth, sampRate, n))
      else
        Ok(Header(channels, bitDepth, sampRate, n)
           + BodyUpTo(c, channels, bitDepth, Padded(left, n), Padded(right, n), n))
  }

  // ---------------------------------------------------------------- reader

  /** A chunk found by the scan: its tag, its declared size, and the offset just after its 8-byte header. */
  datatype Chunk = Chunk(id: seq<byte>, size: u32, pos: nat)

  function Prepend(cs: seq<Chunk>, r: Result<seq<Chunk>, WavError>): Result<seq<Chunk>, WavError>
  {
    match r
    case Ok(rest) => Ok(cs + rest)
    case Err(e) => Err(e)
  }

  /** The chunk scan of Load from cursor `pos` to the end of the stream. */
  function ScanFrom(b: seq<byte>, pos: nat): Result<seq<Chunk>, WavError>
    requires pos <= |b|
    decreases |b| - pos
  {
    if |b| - pos <= 4 then Ok([])
    else if |b| - (pos + 4) < 4 then Err(EndOfStream)
    else
      var size := ReadU32(b, pos + 4);
      if pos + 8 + size > |b| then Err(ChunkSizeMismatch)
      else Prepend([Chunk(b[pos..pos + 4], size, pos + 8)], ScanFrom(b, pos + 8 + size))
  }

  /** The fields Load keeps from a 'fmt ' chunk. */
  datatype Format = Format(audioFormat: u16, channels: u16, sampleRate: u32, bitsPerSample: u16)

  /** The values Load starts from before any 'fmt ' chunk is read. */
  const NoFormat: Format := Format(0, 0, 0, 0)

  /** Reading one 'fmt ' chunk whose body starts at pos; each read can run off the end of the stream. */
  function ReadFmt(b: seq<byte>, pos: nat): Result<Format, WavError>
  {
    if pos + 2 > |b| then Err(EndOfStream)
    else if ReadU16(b, pos) != 1 then Err(CompressedFormat)
    else if pos + 4 > |b| then Err(EndOfStream)
    else if ReadU16(b, pos + 2) != 1 && ReadU16(b, pos + 2) != 2 then Err(ChannelCountInFile)
    else if pos + 8 > |b| then Err(EndOfStream)
    else if ReadU32(b, pos + 4) < 1 then Err(SampleRateInFile)
    else if pos + 16 > |b| then Err(EndOfStream)
    else
      var bits := ReadU16(b, pos + 14);
      if bits != 8 && bits != 16 && bits != 24 && bits != 32 then Err(BitDepthInFile)
      else Ok(Format(1, ReadU16(b, pos + 2), ReadU32(b, pos + 4), bits))
  }

  /** The format after the 'fmt ' loop has visited the first k chunks. */
  function FormatUpTo(b: seq<byte>, cs: seq<Chunk>, k: nat): Result<Format, WavError>
    requires k <= |cs|
  {
    if k == 0 then Ok(NoFormat)
    else
      match FormatUpTo(b, cs, k - 1)
      case Err(e) => Err(e)
      case Ok(f) => if cs[k - 1].id == FMT then ReadFmt(b, cs[k - 1].pos) else Ok(f)
  }

  function Zeros(k: nat): seq<byte>
  {
    seq(k, _ => 0)
  }

  /** How many zero bytes make a length of n a multiple of w. */
  function PadCount(n: nat, w: nat): nat
    requires 1 <= w <= 4
  {
    if n % w == 0 then 0 else w - n % w
  }

  /** The raw data after Construct's alignment loop. */
  function PadToFrame(raw: seq<byte>, w: nat): seq<byte>
    requires 1 <= w <= 4
  {
    raw + Zeros(PadCount(|raw|, w))
  }

  function Widen8(c: Casts, bytes: seq<byte>, k: nat): seq<Sample>
    requires k <= |bytes|
  {
    seq(k, i requires 0 <= i < k => c.fromByte(bytes[i]))
  }

  function Widen16(c: Casts, bytes: seq<byte>, k: nat): seq<Sample>
    requires 2 * k <= |bytes|
  {
    seq(k, i requires 0 <= i < k => c.fromShort(Int16Of(ReadU16(bytes, 2 * i))))
  }

  function Widen32(bytes: seq<byte>, k: nat): seq<Sample>
    requires 4 * k <= |bytes|
  {
    seq(k, i requires 0 <= i < k => FloatFromBytes(bytes, 4 * i))
  }

  /** The samples widened from raw bytes already padded to whole samples. */
  function Widened(c: Casts, bytes: seq<byte>, bitDepth: int): seq<Sample>
    requires WrittenBitDepth(bitDepth)
  {
    if bitDepth == 8 then Widen8(c, bytes, |bytes|)
    else if bitDepth == 16 then Widen16(c, bytes, |bytes| / 2)
    else Widen32(bytes, |bytes| / 4)
  }

  /** What Construct builds from raw data bytes and the format values passed to it. */
  function Constructed(c: Casts, raw: seq<byte>, channels: int, bitDepth: int, sampRate: int): Result<Channels, WavError>
  {
    if channels < 1 || channels > 2 then Err(UnsupportedChannelCount)
    else if !SupportedBitDepth(bitDepth) then Err(UnsupportedBitDepth)
    else if sampRate < 0 then Err(NegativeSampleRate)
    else
      var bytes := PadToFrame(raw, bitDepth / 8);
      if bitDepth == 24 && |bytes| > 0 then Err(FloatBufferTooShort)
      else
        var data := if bitDepth == 24 then [] else Widened(c, bytes, bitDepth);
        if channels == 1 then Ok(Channels(data, data)) else Ok(Channels([], []))
  }

  /** The samples Load reads from one 'data' chunk, or the exception it throws on the way. */
  function DataChunkSamples(c: Casts, b: seq<byte>, ch: Chunk, f: Format): Result<Channels, WavError>
  {
    if ch.pos + ch.size > |b| then Err(DataSizeInvalid)
    else if ch.size >= 0x8000_0000 then Err(NegativeByteCount)
    else Constructed(c, b[ch.pos..ch.pos + ch.size], f.channels, f.bitsPerSample, Int32Of(f.sampleRate))
  }

  /** The samples the 'data' loop of Load has appended after visiting the first k chunks. */
  function DataUpTo(c: Casts, b: seq<byte>, cs: seq<Chunk>, f: Format, k: nat): Result<Channels, WavError>
    requires k <= |cs|
  {
    if k == 0 then Ok(Channels([], []))
    else
      match DataUpTo(c, b, cs, f, k - 1)
      case Err(e) => Err(e)
      case Ok(acc) =>
        var ch := cs[k - 1];
        if ch.id == DATA then
          match DataChunkSamples(c, b, ch, f)
          case Err(e) => Err(e)
          case Ok(w) => Ok(Channels(acc.left + w.left, acc.right + w.right))
        else if k == |cs| then Err(DataChunkMissing)
        else Ok(acc)
  }

  /** What Load(MemoryStream) appends to the store for the stream's bytes b. */
  function Decode(c: Casts, b: seq<byte>): Result<Channels, WavError>
  {
    if |b| < 4 || b[..4] != RIFF then Err(NotRiff)
    else if |b| < 8 then Err(EndOfStream)
    else if ReadU32(b, 4) != |b| - 8 then Err(RiffSizeMismatch)
    else if |b| < 12 || b[8..12] != WAVE then Err(NotWave)
    else
      match ScanFrom(b, 12)
      case Err(e) => Err(e)
      case Ok(cs) =>
        match FormatUpTo(b, cs, |cs|)
        case Err(e) => Err(e)
        case Ok(f) => DataUpTo(c, b, cs, f, |cs|)
  }
}

=== FILE: wave_format_facts.dfy ===
/** Step lemmas that connect the loops of WavStore to the functions of WaveFormat. */
module WaveFormatFacts {
  import opened Wrappers
  import opened LittleEndian
  import opened Samples
  import opened WaveFormat

  /** One iteration of the writer's padding: appending silence at index i when a channel is too short. */
  lemma PaddedStep(s: seq<Sample>, i: nat, n: nat)
    requires i < n
    ensures |Padded(s, i)| >= i
    ensures (if i >= |Padded(s, i)| then Padded(s, i) + [Silence] else Padded(s, i)) == Padded(s, i + 1)
    ensures Padded(s, i + 1)[i] == Padded(s, n)[i]
  {
    if i >= |Padded(s, i)| {
      assert Padded(s, i) + [Silence] == Padded(s, i + 1);
    }
  }

  lemma PrependTwice(a: seq<Chunk>, b: seq<Chunk>, r: Result<seq<Chunk>, WavError>)
    ensures Prepend(a, Prepend(b, r)) == Prepend(a + b, r)
  {
    if r.Ok? {
      assert a + (b + r.value) == (a + b) + r.value;
    }
  }

  /** The writes of one loop iteration of the writer append exactly FrameBytes. */
  lemma FrameWritten(c: Casts, channels: int, bitDepth: int, before: seq<byte>, after: seq<byte>, l: Sample, r: Sample)
    requires WrittenBitDepth(bitDepth)
    requires
      var first := before + SampleBytes(c, bitDepth, l);
      after == if channels == 2 then first + SampleBytes(c, bitDepth, r) else first
    ensures after == before + FrameBytes(c, channels, bitDepth, l, r)
  {
    if channels == 2 {
      assert (before + SampleBytes(c, bitDepth, l)) + SampleBytes(c, bitDepth, r)
          == before + (SampleBytes(c, bitDepth, l) + SampleBytes(c, bitDepth, r));
    } else {
      assert SampleBytes(c, bitDepth, l) + [] == SampleBytes(c, bitDepth, l);
    }
  }

  lemma BodyStep(c: Casts, channels: int, bitDepth: int, left: seq<Sample>, right: seq<Sample>, header: seq<byte>, i: nat)
    requires WrittenBitDepth(bitDepth) && i < |left| && i < |right|
    ensures header + BodyUpTo(c, channels, bitDepth, left, right, i + 1)
         == header + BodyUpTo(c, channels, bitDepth, left, right, i) + FrameBytes(c, channels, bitDepth, left[i], right[i])
  {
  }

  lemma PrependNothing(r: Result<seq<Chunk>, WavError>)
    ensures Prepend([], r) == r
  {
    if r.Ok? {
      assert [] + r.value == r.value;
    }
  }

  /** The 'fmt ' loop stops at its first exception: later chunks do not change the outcome. */
  lemma {:induction false} FormatErrorPersists(b: seq<byte>, cs: seq<Chunk>, k: nat, k2: nat)
    requires k <= k2 <= |cs| && FormatUpTo(b, cs, k).Err?
    ensures FormatUpTo(b, cs, k2) == FormatUpTo(b, cs, k)
    decreases k2 - k
  {
    if k < k2 {
      FormatErrorPersists(b, cs, k, k2 - 1);
    }
  }

  /** The 'data' loop stops at its first exception: later chunks do not change the outcome. */
  lemma {:induction false} DataErrorPersists(c: Casts, b: seq<byte>, cs: seq<Chunk>, f: Format, k: nat, k2: nat)
    requires k <= k2 <= |cs| && DataUpTo(c, b, cs, f, k).Err?
    ensures DataUpTo(c, b, cs, f, k2) == DataUpTo(c, b, cs, f, k)
    decreases k2 - k
  {
    if k < k2 {
      DataErrorPersists(c, b, cs, f, k, k2 - 1);
    }
  }

  /** Of the lengths n, n + 1, ..., n + PadCount(n, w), only the last is a multiple of w. */
  lemma PadCountExact(n: nat, k: nat, w: nat)
    requires 1 <= w <= 4 && k <= PadCount(n, w)
    ensures (n + k) % w == 0 <==> k == PadCount(n, w)
  {
    var q, r := n / w, n % w;
    assert n == q * w + r;
    if r != 0 {
      assert n + k == q * w + (r + k) && 0 < r + k <= w;
      if r + k == w {
        assert n + k == (q + 1) * w;
      } else {
        assert (n + k) / w == q && (n + k) % w == r + k;
      }
    }
  }
}

=== FILE: wrappers.dfy ===
/** Failure-carrying results used for the exceptions the store and codec throw. */
module Wrappers {

  datatype Option<+T> = None | Some(value: T)

  datatype Result<+T, +E> = Ok(value: T) | Err(error: E)
}

=== FILE: writer_properties.dfy ===
/** What Serialize promises about the bytes it produces and the store it leaves. */
module WriterProperties {
  import opened Wrappers
  import opened LittleEndian
  import opened Samples
  import opened WaveFormat

  /**
   * After the padding loop has run to n (at least the channel's length), the
   * channel holds n samples: the old ones unchanged, then silence.
   */
  lemma PaddedShape(s: seq<Sample>, n: nat)
    ensures |s| <= n ==> |Padded(s, n)| == n
    ensures n <= |s| ==> Padded(s, n) == s
    ensures Padded(s, n)[..|s|] == s
    ensures forall i :: |s| <= i < |Padded(s, n)| ==> Padded(s, n)[i] == Silence
  {
  }

  /** The parameter checks: each bad parameter has its own error, in the source's order, and 24 bits fails as soon as there is a sample. */
  lemma EncodeFailures(c: Casts, left: seq<Sample>, right: seq<Sample>, channels: int32, bitDepth: int32, sampRate: int32)
    ensures (channels < 1 || channels > 2) ==> Encode(c, left, right, channels, bitDepth, sampRate) == Err(UnsupportedChannelCount)
    ensures 1 <= channels <= 2 && !SupportedBitDepth(bitDepth) ==>
      Encode(c, left, right, channels, bitDepth, sampRate) == Err(UnsupportedBitDepth)
    ensures 1 <= channels <= 2 && SupportedBitDepth(bitDepth) && sampRate < 0 ==>
      Encode(c, left, right, channels, bitDepth, sampRate) == Err(NegativeSampleRate)
    ensures ValidWriteParams(channels, bitDepth, sampRate) ==>
      (Encode(c, left, right, channels, bitDepth, sampRate).Err? <==> bitDepth == 24 && (|left| > 0 || |right| > 0))
  {
  }

  /** Every sample index contributes 2 bytes per written channel. */
  lemma {:induction false} BodyLength(c: Casts, channels: int, bitDepth: int, left: seq<Sample>, right: seq<Sample>, k: nat)
    requires 1 <= channels <= 2 && WrittenBitDepth(bitDepth) && k <= |left| && k <= |right|
    ensures |BodyUpTo(c, channels, bitDepth, left, right, k)| == 2 * channels * k
  {
    if k > 0 {
      BodyLength(c, channels, bitDepth, left, right, k - 1);
      assert |FrameBytes(c, channels, bitDepth, left[k - 1], right[k - 1])| == 2 * channels;
      assert 2 * channels * k == 2 * channels * (k - 1) + 2 * channels;
    }
  }

  /** A slice inside the first part of a concatenation is a slice of that part. */
  lemma SliceInPrefix(p: seq<byte>, q: seq<byte>, from: nat, to: nat)
    requires from <= to <= |p|
    ensures (p + q)[from..to] == p[from..to]
  {
  }

  /** The slice after the first part of a concatenation is the second part. */
  lemma SliceAfterPrefix(p: seq<byte>, q: seq<byte>)
    ensures (p + q)[|p|..|p| + |q|] == q
  {
  }

  /** In mono, index j's two bytes sit at offset 2 * j and hold only the left sample. */
  lemma {:induction false} MonoBodyAt(c: Casts, bitDepth: int, left: seq<Sample>, right: seq<Sample>, k: nat, j: nat)
    requires WrittenBitDepth(bitDepth) && k <= |left| && k <= |right| && j < k
    ensures |BodyUpTo(c, 1, bitDepth, left, right, k)| == 2 * k
    ensures BodyUpTo(c, 1, bitDepth, left, right, k)[2 * j..2 * j + 2] == SampleBytes(c, bitDepth, left[j])
  {
    BodyLength(c, 1, bitDepth, left, right, k - 1);
    var prefix := BodyUpTo(c, 1, bitDepth, left, right, k - 1);
    var frame := FrameBytes(c, 1, bitDepth, left[k - 1], right[k - 1]);
    assert BodyUpTo(c, 1, bitDepth, left, right, k) == prefix + frame;
    assert frame == SampleBytes(c, bitDepth, left[k - 1]);
    assert |prefix| == 2 * (k - 1) && |frame| == 2;
    if j < k - 1 {
      MonoBodyAt(c, bitDepth, left, right, k - 1, j);
      SliceInPrefix(prefix, frame, 2 * j, 2 * j + 2);
    } else {
      assert j == k - 1 && 2 * j == |prefix| && 2 * j + 2 == |prefix| + |frame|;
      SliceAfterPrefix(prefix, frame);
    }
  }

  /** In stereo, index j's four bytes sit at offset 4 * j: the left sample's two, then the right sample's two. */
  lemma StereoBodyAt(c: Casts, bitDepth: int, left: seq<Sample>, right: seq<Sample>, k: nat, j: nat)
    requires WrittenBitDepth(bitDepth) && k <= |left| && k <= |right| && j < k
    ensures |BodyUpTo(c, 2, bitDepth, left, right, k)| == 4 * k
    ensures BodyUpTo(c, 2, bitDepth, left, right, k)[4 * j..4 * j + 4]
      == SampleBytes(c, bitDepth, left[j]) + SampleBytes(c, bitDepth, right[j])
  {
    var body := BodyUpTo(c, 2, bitDepth, left, right, k);
    var prefix := BodyUpTo(c, 2, bitDepth, left, right, j);
    var frame := FrameBytes(c, 2, bitDepth, left[j], right[j]);
    BodyLength(c, 2, bitDepth, left, right, k);
    BodyLength(c, 2, bitDepth, left, right, j);
    BodyPrefix(c, 2, bitDepth, left, right, k, j + 1);
    assert BodyUpTo(c, 2, bitDepth, left, right, j + 1) == prefix + frame;
    assert |prefix| == 4 * j && |frame| == 4;
    assert body[..4 * j + 4] == prefix + frame;
    SliceAfterPrefix(prefix, frame);
    assert body[4 * j..4 * j + 4] == (prefix + frame)[4 * j..4 * j + 4];
  }

  /** Writing more indices never changes the bytes already written for the earlier ones. */
  lemma {:induction false} BodyPrefix(c: Casts, channels: int, bitDepth: int, left: seq<Sample>, right: seq<Sample>, k: nat, m: nat)
    requires WrittenBitDepth(bitDepth) && m <= k <= |left| && k <= |right|
    ensures |BodyUpTo(c, channels, bitDepth, left, right, m)| <= |BodyUpTo(c, channels, bitDepth, left, right, k)|
    ensures BodyUpTo(c, channels, bitDepth, left, right, k)[..|BodyUpTo(c, channels, bitDepth, left, right, m)|]
      == BodyUpTo(c, channels, bitDepth, left, right, m)
    decreases k
  {
    var earlier := BodyUpTo(c, channels, bitDepth, left, right, m);
    if m < k {
      BodyPrefix(c, channels, bitDepth, left, right, k - 1, m);
      var before := BodyUpTo(c, channels, bitDepth, left, right, k - 1);
      var frame := FrameBytes(c, channels, bitDepth, left[k - 1], right[k - 1]);
      assert BodyUpTo(c, channels, bitDepth, left, right, k) == before + frame;
      SliceInPrefix(before, frame, 0, |earlier|);
      assert (before + frame)[..|earlier|] == before[..|earlier|];
    } else {
      assert BodyUpTo(c, channels, bitDepth, left, right, k)[..|earlier|] == earlier;
    }
  }

  /** The header's fields, read back the way a reader reads them. */
  lemma HeaderFields(channels: int32, bitDepth: int32, sampRate: int32, n: nat)
    requires ValidWriteParams(channels, bitDepth, sampRate)
    ensures var h := Header(channels, bitDepth, sampRate, n);
      && |h| == 44
      && h[0..4] == RIFF
      && ReadU32(h, 4) == (36 + (n * (bitDepth / 8)) % 0x1_0000_0000) % 0x1_0000_0000
      && h[8..12] == WAVE
      && h[12..16] == FMT
      && ReadU32(h, 16) == 16
      && ReadU16(h, 20) == 1
      && ReadU16(h, 22) == channels as int
      && ReadU32(h, 24) == sampRate as int
      && ReadU32(h, 28) == (sampRate as int * (channels * (bitDepth / 8))) % 0x1_0000_0000
      && ReadU16(h, 32) == channels * (bitDepth / 8)
      && ReadU16(h, 34) == bitDepth as int
      && h[36..40] == DATA
      && ReadU32(h, 40) == (n * (bitDepth / 8)) % 0x1_0000_0000
  {
    var h := Header(channels, bitDepth, sampRate, n);
    U32RoundTrip(RiffSize(n, bitDepth));
    U32RoundTrip(16);
    U16RoundTrip(1);
    U16RoundTrip(channels as int);
    U32RoundTrip(sampRate as int);
    U32RoundTrip(ByteRate(channels, bitDepth, sampRate));
    U16RoundTrip(BlockAlign(channels, bitDepth));
    U16RoundTrip(bitDepth as int);
    U32RoundTrip(DataChunkSize(n, bitDepth));
    assert h[4..8] == U32Bytes(RiffSize(n, bitDepth));
    assert h[16..20] == U32Bytes(16);
    assert h[20..22] == U16Bytes(1);
    assert h[22..24] == U16Bytes(channels as int);
    assert h[24..28] == U32Bytes(sampRate as int);
    assert h[28..32] == U32Bytes(ByteRate(channels, bitDepth, sampRate));
    assert h[32..34] == U16Bytes(BlockAlign(channels, bitDepth));
    assert h[34..36] == U16Bytes(bitDepth as int);
    assert h[40..44] == U32Bytes(DataChunkSize(n, bitDepth));
  }

  /** The stream starts with the 44-byte header, then 2 bytes per sample and written channel. */
  lemma SerializedLayout(c: Casts, left: seq<Sample>, right: seq<Sample>, channels: int32, bitDepth: int32, sampRate: int32)
    requires Encode(c, left, right, channels, bitDepth, sampRate).Ok?
    ensures var out := Encode(c, left, right, channels, bitDepth, sampRate).value;
      && ValidWriteParams(channels, bitDepth, sampRate)
      && |out| == 44 + (if bitDepth == 24 then 0 else 2 * channels * Longest(left, right))
      && out[..44] == Header(channels, bitDepth, sampRate, Longest(left, right))
      && (bitDepth != 24 ==> out[44..] == BodyUpTo(c, channels as int, bitDepth as int,
            Padded(left, Longest(left, right)), Padded(right, Longest(left, right)), Longest(left, right)))
  {
    var n := Longest(left, right);
    if bitDepth != 24 {
      BodyLength(c, channels, bitDepth, Padded(left, n), Padded(right, n), n);
    }
    HeaderFields(channels, bitDepth, sampRate, n);
  }

  /** The first 44 bytes of a serialized stream, field by field. */
  lemma SerializedHeader(c: Casts, left: seq<Sample>, right: seq<Sample>, channels: int32, bitDepth: int32, sampRate: int32)
    requires Encode(c, left, right, channels, bitDepth, sampRate).Ok?
    ensures var out := Encode(c, left, right, channels, bitDepth, sampRate).value;
      var n := Longest(left, right);
      && (bitDepth == 24 ==> n == 0)
      && |out| >= 44
      && |out| == 44 + (if bitDepth == 24 then 0 else 2 * channels * n)
      && out[0..4] == RIFF
      && ReadU32(out, 4) == (36 + (n * (bitDepth / 8)) % 0x1_0000_0000) % 0x1_0000_0000
      && out[8..12] == WAVE
      && out[12..16] == FMT
      && ReadU32(out, 16) == 16
      && ReadU16(out, 20) == 1
      && ReadU16(out, 22) == channels as int
      && ReadU32(out, 24) == sampRate as int
      && ReadU32(out, 28) == (sampRate as int * (channels * (bitDepth / 8))) % 0x1_0000_0000
      && ReadU16(out, 32) == channels * (bitDepth / 8)
      && ReadU16(out, 34) == bitDepth as int
      && out[36..40] == DATA
      && ReadU32(out, 40) == (n * (bitDepth / 8)) % 0x1_0000_0000
  {
    var out := Encode(c, left, right, channels, bitDepth, sampRate).value;
    var n := Longest(left, right);
    SerializedLayout(c, left, right, channels, bitDepth, sampRate);
    HeaderFields(channels, bitDepth, sampRate, n);
    HeaderOfStream(Header(channels, bitDepth, sampRate, n), out);
  }

  /** A stream that starts with a 44-byte header has the header's tags and field values. */
  lemma HeaderOfStream(h: seq<byte>, out: seq<byte>)
    requires |h| == 44 && |out| >= 44 && out[..44] == h
    ensures out[0..4] == h[0..4] && out[8..12] == h[8..12] && out[12..16] == h[12..16] && out[36..40] == h[36..40]
    ensures ReadU32(out, 4) == ReadU32(h, 4) && ReadU32(out, 16) == ReadU32(h, 16)
    ensures ReadU16(out, 20) == ReadU16(h, 20) && ReadU16(out, 22) == ReadU16(h, 22)
    ensures ReadU32(out, 24) == ReadU32(h, 24) && ReadU32(out, 28) == ReadU32(h, 28)
    ensures ReadU16(out, 32) == ReadU16(h, 32) && ReadU16(out, 34) == ReadU16(h, 34)
    ensures ReadU32(out, 40) == ReadU32(h, 40)
  {
    assert forall i :: 0 <= i < 44 ==> out[i] == h[i];
  }

  /**
   * The two size fields describe the stream's real length only for mono
   * 16-bit, stereo 32-bit, or an empty store: the data size omits the
   * channel count, and every width writes 2 bytes per sample.
   */
  lemma SizeFieldsMatchLength(c: Casts, left: seq<Sample>, right: seq<Sample>, channels: int32, bitDepth: int32, sampRate: int32)
    requires Encode(c, left, right, channels, bitDepth, sampRate).Ok?
    requires FitsMemoryStream(channels as int, Longest(left, right))
    ensures var out := Encode(c, left, right, channels, bitDepth, sampRate).value;
      var consistent := Longest(left, right) == 0 || (channels == 1 && bitDepth == 16) || (channels == 2 && bitDepth == 32);
      && |out| >= 44
      && ReadU32(out, 40) == Longest(left, right) * (bitDepth / 8)
      && ReadU32(out, 4) == 36 + Longest(left, right) * (bitDepth / 8)
      && (ReadU32(out, 4) == |out| - 8 <==> consistent)
      && (ReadU32(out, 40) == |out| - 44 <==> consistent)
  {
    var out := Encode(c, left, right, channels, bitDepth, sampRate).value;
    SerializedSizes(c, left, right, channels, bitDepth, sampRate);
    SizesAgree(Longest(left, right), channels as int, bitDepth as int, |out|, ReadU32(out, 4), ReadU32(out, 40));
  }

  /** The stream's length and its two size fields, as functions of the sample count. */
  lemma SerializedSizes(c: Casts, left: seq<Sample>, right: seq<Sample>, channels: int32, bitDepth: int32, sampRate: int32)
    requires Encode(c, left, right, channels, bitDepth, sampRate).Ok?
    ensures var out := Encode(c, left, right, channels, bitDepth, sampRate).value;
      var n := Longest(left, right);
      && ValidWriteParams(channels, bitDepth, sampRate)
      && (bitDepth == 24 ==> n == 0)
      && |out| == 44 + (if bitDepth == 24 then 0 else 2 * channels * n)
      && ReadU32(out, 4) == (36 + (n * (bitDepth / 8)) % 0x1_0000_0000) % 0x1_0000_0000
      && ReadU32(out, 40) == (n * (bitDepth / 8)) % 0x1_0000_0000
  {
    SerializedHeader(c, left, right, channels, bitDepth, sampRate);
  }

  /** The arithmetic behind SizeFieldsMatchLength, one width at a time. */
  lemma SizesAgree(n: nat, channels: int, bitDepth: int, len: int, riffSize: int, dataSize: int)
    requires 1 <= channels <= 2 && SupportedBitDepth(bitDepth)
    requires bitDepth == 24 ==> n == 0
    requires FitsMemoryStream(channels, n)
    requires len == 44 + (if bitDepth == 24 then 0 else 2 * channels * n)
    requires dataSize == (n * (bitDepth / 8)) % 0x1_0000_0000
    requires riffSize == (36 + (n * (bitDepth / 8)) % 0x1_0000_0000) % 0x1_0000_0000
    ensures dataSize == n * (bitDepth / 8) && riffSize == 36 + n * (bitDepth / 8)
    ensures var consistent := n == 0 || (channels == 1 && bitDepth == 16) || (channels == 2 && bitDepth == 32);
      && (riffSize == len - 8 <==> consistent)
      && (dataSize == len - 44 <==> consistent)
  {
    var d := n * (bitDepth / 8);
    assert len <= 44 + 2 * channels * n < 0x8000_0000;
    if channels == 1 {
      assert len == 44 + (if bitDepth == 24 then 0 else 2 * n);
    } else {
      assert len == 44 + (if bitDepth == 24 then 0 else 4 * n);
    }
    assert bitDepth != 24 ==> 2 * n < 0x8000_0000;
    if bitDepth == 8 {
      assert d == n;
    } else if bitDepth == 16 {
      assert d == 2 * n;
    } else if bitDepth == 24 {
      assert d == 0;
    } else {
      assert d == 4 * n;
    }
    assert 0 <= d < 0x1_0000_0000 - 36;
    assert dataSize == d && riffSize == 36 + d;
  }

  /**
   * Serializing the padded store that Serialize leaves behind, with the same
   * parameters, gives the same bytes: the destructive padding is idempotent.
   */
  lemma SerializeTwiceSameBytes(c: Casts, left: seq<Sample>, right: seq<Sample>, channels: int32, bitDepth: int32, sampRate: int32)
    ensures var n := Longest(left, right);
      && Longest(Padded(left, n), Padded(right, n)) == n
      && Encode(c, Padded(left, n), Padded(right, n), channels, bitDepth, sampRate)
         == Encode(c, left, right, channels, bitDepth, sampRate)
  {
    var n := Longest(left, right);
    assert Padded(Padded(left, n), n) == Padded(left, n);
    assert Padded(Padded(right, n), n) == Padded(right, n);
  }
}
